=== FILE: README.md ===
# Vanity address search, modelled in Dafny

Two command-line scripts search for Bitcoin SV vanity addresses, meaning
addresses that begin with `1` followed by a chosen prefix:

- `create_privatekey_from_prefixes.py` takes a list of prefixes. It searches
  one stream of random keys for all of them at once, reports every prefix the
  first time an address hits it, and prints a status line every
  `status_interval` attempts.
- `create_privatekey_from_prefix.py` takes one prefix. It stops at the first
  hit, before its status check.

The model covers these parts:

- Both search loops (`ListSearch`, `SingleSearch`) and the prefix test they
  share (`Matching`).
- `format_duration` (`Duration`), with its decimal rendering (`Decimal`).
- The command-line parsing of both scripts (`Cli`):
  - the argument count;
  - the clean-up of the prefix list;
  - the alphanumeric check;
  - the status interval, read with Python's `int()`.

`Text` holds the Python string operations the scripts use: `str.strip`,
`startswith`, `isalnum`, `re.split(r'[;,]+', …)` and `' '.join`.

The key generator is replaced by the sequence of addresses it would produce.
Attempt `t`, counting from 1, sees `addresses[t - 1]`. The random source is
never looked at, so a run is a pure function of:

- the prefix list;
- the interval;
- the address sequence.

A run ends in one of three ways:

- the loop exits normally (`Done` or `Found`);
- `tries % status_interval` raises because the interval is 0 (`ZeroDivision`);
- the supplied addresses run out (`StreamEnd`). This is where the real script
  would keep looping.

A run also records what the script prints as a trace of events: one `Match`
per newly claimed prefix, and `Status` lines.

**Repeated prefixes.** A repeated prefix might be expected to count once, so
that a run finishes once every distinct prefix is found. The code does
otherwise:

- `found` is keyed by prefix;
- the loop runs while `len(found) < len(prefixes)`;
- so with a repeated prefix the guard never fails.

The model follows the code. `ListSearch.DuplicatesNeverDone` proves that such
a search never finishes. `ListSearch.DistinctDone` proves that with distinct
prefixes a finished search has hit every prefix.

## Model

| member | source | states |
|---|---|---|
| Duration.Decompose | cmd/create_privatekey_from_prefixes.py:49-53 | the `divmod` chain leaves days under 365, hours under 24, minutes and seconds under 60, and the parts add up to exactly the input number of seconds |
| Duration.DecomposeTotal | cmd/create_privatekey_from_prefixes.py:50-53 | the breakdown is unique: any normal breakdown is what the `divmod` chain gives for its own total |
| Duration.NonZero | cmd/create_privatekey_from_prefixes.py:55-62 | skipping the zero counts keeps only non-zero parts taken from the input, keeps rank order, and loses no seconds |
| Duration.NonZeroKeeps | cmd/create_privatekey_from_prefixes.py:55-62 | no non-zero part is skipped |
| Duration.Parts | cmd/create_privatekey_from_prefixes.py:54-63 | the rendered parts come in y, d, h, m, s order; every part but the last is a non-zero year, day, hour or minute count of the breakdown, and every non-zero one of those is there; the seconds part is always last, even at 0; together they stand for the whole total |
| Duration.Word | cmd/create_privatekey_from_prefixes.py:56-63 | each word is a count followed by its unit letter and holds no space, so the join can be split again; the count has no leading zero unless it is 0; reading the word gives back its part |
| Duration.ReadWordsOfParts | cmd/create_privatekey_from_prefixes.py:54-63 | reading the words of a list of parts gives back the seconds that list stands for |
| Duration.FormatDuration | cmd/create_privatekey_from_prefixes.py:47-64 | the rendering is never empty, starts with a digit and ends with the seconds letter `s` |
| Duration.RoundTrip | cmd/create_privatekey_from_prefixes.py:47-64 | `format_duration` loses nothing: reading its output back gives the number of seconds it was given |
| Duration.FormatInjective | cmd/create_privatekey_from_prefixes.py:47-64 | two different durations never render the same |
| Duration.ExampleZero | cmd/create_privatekey_from_prefixes.py:63-64 | 0 seconds render as `0s` |
| Duration.ExampleMinute | cmd/create_privatekey_from_prefixes.py:61-64 | 60 seconds render as `1m 0s` |
| Duration.ExampleYear | cmd/create_privatekey_from_prefixes.py:50-64 | one year and one second render as `1y 1s`, with the zero days, hours and minutes left out |
| Decimal.Show | cmd/create_privatekey_from_prefixes.py:56 | `f"{n}"` is a non-empty digit string with no leading zero unless `n` is 0 |
| Decimal.ReadShow | cmd/create_privatekey_from_prefixes.py:56 | the digits `f"{n}"` writes read back as `n` |
| Decimal.ShowRead | cmd/create_privatekey_from_prefixes.py:56 | every digit string without a leading zero is what `f"{n}"` writes for its value |
| Matching.HitsMeans | cmd/create_privatekey_from_prefixes.py:82-95 | an address hits a prefix exactly when it is `1`, then the prefix, then anything; the test is positional and case-sensitive |
| Matching.OutsideAlphabetNeverHits | cmd/create_privatekey_from_prefix.py:34-45 | a prefix that holds a character outside the Base58 alphabet (`0`, `O`, `I`, `l`) is hit by no Base58 address |
| Matching.Hits | cmd/create_privatekey_from_prefixes.py:82-95 | an address that hits a prefix is longer than it and starts with `1` |
| Matching.StatusDueDivides | cmd/create_privatekey_from_prefixes.py:102 | a status line is due exactly when the interval divides the attempt count, and a negated interval is due at the same attempts |
| Matching.PyMod | cmd/create_privatekey_from_prefixes.py:102 | Python's `%` takes the divisor's sign and is zero exactly when the divisor divides the count, so a negative interval fires at the same attempts as its absolute value |
| ListSearch.SearchList | cmd/create_privatekey_from_prefixes.py:80-109 | the list search never uses more addresses than the stream holds; it can raise on a zero interval only at attempt 1; it runs out of addresses only after using all of them; an empty list finishes at once with nothing printed |
| ListSearch.ClaimFrom | cmd/create_privatekey_from_prefixes.py:94-97 | the inner loop claims exactly the listed prefixes not yet found whose target starts the address, and nothing outside the list |
| ListSearch.ClaimFound | cmd/create_privatekey_from_prefixes.py:94-97 | after the inner loop, `found` is the old set plus every listed prefix the address hits |
| ListSearch.ClaimOrdered | cmd/create_privatekey_from_prefixes.py:94-99 | prefixes claimed by one address are reported in the order of their first position in the list |
| ListSearch.Loop | cmd/create_privatekey_from_prefixes.py:88-106 | the loop ends between the attempts already made and the end of the stream; it raises on a zero interval only at the very next attempt |
| ListSearch.FoundByStep | cmd/create_privatekey_from_prefixes.py:88-97 | after attempt `k + 1`, `found` is exactly the set of listed prefixes hit by one of the first `k + 1` addresses |
| ListSearch.AttemptMatches | cmd/create_privatekey_from_prefixes.py:94-100 | one attempt reports exactly the listed prefixes whose first hit is this attempt's address |
| ListSearch.LoopMatches | cmd/create_privatekey_from_prefixes.py:88-100 | from any point of the loop, the reported matches are exactly the first hits of listed prefixes at the attempts made |
| ListSearch.LoopStatus | cmd/create_privatekey_from_prefixes.py:102-106 | from any point of the loop, a status line appears exactly after each attempt the interval divides, and carries the number found by then |
| ListSearch.LoopOutcome | cmd/create_privatekey_from_prefixes.py:88-106 | the loop stops at the first attempt after which the guard fails, and reaches the end of the stream only if the guard never fails on it |
| ListSearch.LoopOrder | cmd/create_privatekey_from_prefixes.py:88-106 | the printed trace never goes back in attempt number; a status line is the last thing printed for its attempt; matches of one attempt follow list order |
| ListSearch.SearchMatches | cmd/create_privatekey_from_prefixes.py:80-106 | a search reports `(p, a, t)` exactly when `p` is listed and `a`, the address of attempt `t`, is the first address that hits `p` |
| ListSearch.SearchStatus | cmd/create_privatekey_from_prefixes.py:102-106 | status lines follow exactly the attempts the interval divides, with `len(found)` at that point; a zero interval prints none |
| ListSearch.SearchOrder | cmd/create_privatekey_from_prefixes.py:88-106 | the whole trace is in attempt order, and in list order among the matches of one attempt |
| ListSearch.SearchOutcome | cmd/create_privatekey_from_prefixes.py:88-109 | a search that finishes stops at the first attempt count where `len(found)` reaches the list length; one that runs out of addresses never reached it; it raises only on attempt 1 with a zero interval, and a zero interval with a non-empty list and a non-empty stream always raises there; an empty list finishes after zero attempts with nothing printed |
| ListSearch.SearchClaimsOnce | cmd/create_privatekey_from_prefixes.py:94-97 | no prefix is reported twice, even when the list repeats it |
| ListSearch.DuplicatesNeverDone | cmd/create_privatekey_from_prefixes.py:83-97 | with a repeated prefix the loop guard never fails, so the search never finishes |
| ListSearch.DistinctAllFound | cmd/create_privatekey_from_prefixes.py:88 | with distinct prefixes the guard fails exactly when every prefix has been hit |
| ListSearch.DistinctDone | cmd/create_privatekey_from_prefixes.py:88-109 | with distinct prefixes, a finished search has hit every prefix, and its last attempt reported one of them |
| ListSearch.DistinctFinishes | cmd/create_privatekey_from_prefixes.py:88-106 | with distinct prefixes and a non-zero interval, a stream that hits every prefix makes the search finish, right after the first attempt by which all of them have been hit |
| ListSearch.ElementsCard | cmd/create_privatekey_from_prefixes.py:88 | a list has as many distinct entries as entries exactly when no entry repeats, which is what the guard's length comparison relies on |
| ListSearch.ExampleThirdAttempt | cmd/create_privatekey_from_prefixes.py:80-109 | one prefix, first hit by the third address: one match at attempt 3, then the search finishes |
| ListSearch.ExampleOverlap | cmd/create_privatekey_from_prefixes.py:94-100 | a single address that hits both `AB` and `A` claims both at attempt 1, in list order |
| ListSearch.ExampleEveryOther | cmd/create_privatekey_from_prefixes.py:102-106 | with interval 2 and no hits, status lines follow attempts 2 and 4 only |
| SingleSearch.GenerateVanity | cmd/create_privatekey_from_prefix.py:32-61 | the single search never uses more addresses than the stream holds; a reported address is the one its attempt produced and hits the prefix; it runs out of addresses only after using all of them |
| SingleSearch.Search | cmd/create_privatekey_from_prefix.py:38-61 | the loop ends between the attempts already made and the end of the stream |
| SingleSearch.SearchOutcome | cmd/create_privatekey_from_prefix.py:38-58 | the search stops at the first hit and returns that address; it runs out of addresses only when none hits; a hit at the next attempt is reported whatever the interval; a zero interval raises exactly when the next attempt misses |
| SingleSearch.SearchTicks | cmd/create_privatekey_from_prefix.py:57-61 | status lines follow exactly the attempts the interval divides that come before the first hit, in increasing order |
| SingleSearch.FindsIffHit | cmd/create_privatekey_from_prefix.py:38-55 | with a non-zero interval the prefix is found exactly when some address hits it, and the address found is its first hit |
| SingleSearch.NeverFoundOutsideAlphabet | cmd/create_privatekey_from_prefix.py:45-55 | a prefix that passes the alphanumeric check but holds `0`, `O`, `I` or `l` is never found among Base58 addresses |
| SingleSearch.AgreesWithList | cmd/create_privatekey_from_prefix.py:38-61 | with a non-zero interval, the single search and the list search for `[prefix]` stop at the same attempt; a find by one is a match reported by the other |
| SingleSearch.ExampleFindBeforeStatus | cmd/create_privatekey_from_prefix.py:45-61 | the attempt that finds the prefix prints no status line, even when the interval divides it; the list script prints one after its match |
| Text.StripSpace | cmd/create_privatekey_from_prefixes.py:125 | `strip()` is no longer than its input and leaves no whitespace at either end |
| Text.StripShape | cmd/create_privatekey_from_prefixes.py:125 | `strip` returns a slice of its input with only stripped characters cut away on each side, and neither end of the slice can be stripped |
| Text.StripUnchanged | cmd/create_privatekey_from_prefixes.py:125 | a string whose ends cannot be stripped is left as it is |
| Text.StripIdempotent | cmd/create_privatekey_from_prefixes.py:125 | stripping twice is stripping once |
| Text.StripSurrounded | cmd/create_privatekey_from_prefixes.py:125 | one strippable character on each side of a string that cannot be stripped is removed, and nothing else is |
| Text.StripKeepsRest | cmd/create_privatekey_from_prefixes.py:125 | stripping removes only strippable characters: every other character survives, in order |
| Text.SplitRuns | cmd/create_privatekey_from_prefixes.py:126 | splitting on runs of `;` and `,` gives at least one piece, and no piece holds a separator |
| Text.SplitRunsShape | cmd/create_privatekey_from_prefixes.py:126 | the string is its pieces joined by the separator runs between them; every run is a non-empty run of `;` and `,`, so a run always ends a piece; only the first and last piece can be empty, and the first is not when the string starts with something other than a separator |
| Text.SplitRunsJoinRuns | cmd/create_privatekey_from_prefixes.py:126 | separator-free words, none empty but the first and last, joined by any non-empty runs of `;` and `,` split back into exactly those words |
| Text.StripPadded | cmd/create_privatekey_from_prefixes.py:126 | stripping a string with strippable padding on both sides and unstrippable ends removes exactly the padding |
| Text.SplitRunsKeepsText | cmd/create_privatekey_from_prefixes.py:126 | splitting on runs of `;` and `,` loses exactly the separators: the pieces spell out the rest of the string, in order |
| Text.SplitJoin | cmd/create_privatekey_from_prefixes.py:64 | words without a space, joined by `' '`, split back into the same words |
| Cli.Unsigned | cmd/create_privatekey_from_prefixes.py:137 | a digit group is read exactly when it is digits with single underscores between two digits |
| Cli.ParseInt | cmd/create_privatekey_from_prefixes.py:137 | what `int()` accepts, once the whitespace it ignores is gone, starts with a sign or a digit and ends with a digit |
| Cli.ParseIntFormat | cmd/create_privatekey_from_prefixes.py:137 | `int()` reads every rendered integer, negative ones included, as that integer |
| Cli.ParseIntGrouped | cmd/create_privatekey_from_prefixes.py:137 | `int("1_0")` is 10 |
| Cli.ParseIntMisgrouped | cmd/create_privatekey_from_prefixes.py:137-140 | `1__0`, `_1` and `1_` are rejected |
| Cli.ParseIntPadded | cmd/create_privatekey_from_prefixes.py:137 | surrounding whitespace is ignored: `" -7\n"` reads as -7 |
| Cli.ParseIntSeparator | cmd/create_privatekey_from_prefixes.py:137-140 | `int()` rejects a leading 0x1C separator, which `str.strip()` would remove |
| Cli.ParseIntNoDigits | cmd/create_privatekey_from_prefixes.py:137-140 | a space after the sign, a lone sign and the empty string are rejected |
| Cli.Unquote | cmd/create_privatekey_from_prefixes.py:125 | unquoting never lengthens the argument and leaves no single quote at either end |
| Cli.Keep | cmd/create_privatekey_from_prefixes.py:126 | keeping never adds pieces and keeps no empty one; which piece gives which prefix is stated by Cli.KeepIndexed |
| Cli.KeepClean | cmd/create_privatekey_from_prefixes.py:126 | every kept piece is non-blank, has no whitespace at either end, and holds no separator |
| Cli.PiecesClean | cmd/create_privatekey_from_prefixes.py:125-126 | every prefix read from the first argument is non-blank, unpadded and separator-free |
| Cli.KeepText | cmd/create_privatekey_from_prefixes.py:126 | stripping and dropping blank pieces loses whitespace only |
| Cli.KeepAppend | cmd/create_privatekey_from_prefixes.py:126 | the comprehension treats each piece on its own: keeping a concatenation is keeping each part and concatenating |
| Cli.KeepIndexed | cmd/create_privatekey_from_prefixes.py:126 | the k-th kept prefix is the stripped piece at the k-th position whose stripped piece is not blank, so blank pieces are dropped and every other piece stays a prefix of its own, in order |
| Cli.KeptIndicesExact | cmd/create_privatekey_from_prefixes.py:126 | the positions Cli.KeepIndexed uses are exactly those of the pieces that are not blank once stripped (both directions), in increasing order, so no piece is used twice and none is skipped |
| Cli.PositionsExact | cmd/create_privatekey_from_prefixes.py:126 | the comprehension's filter over positions: a position is listed exactly when its piece passes the filter |
| Cli.PositionsIncreasing | cmd/create_privatekey_from_prefixes.py:126 | the comprehension visits the pieces left to right, so the listed positions increase |
| Cli.MarkAt | cmd/create_privatekey_from_prefixes.py:126 | the filter `if p.strip()` marks a piece exactly when its stripped form is not empty |
| Cli.PiecesIndexed | cmd/create_privatekey_from_prefixes.py:125-126 | the k-th prefix read from the first argument is the k-th non-blank piece of the unquoted, split argument, stripped |
| Cli.ExampleBlankPiece | cmd/create_privatekey_from_prefixes.py:126 | the pieces of `A, ,B` keep to `A` and `B`: the blank piece is dropped and the other two stay apart |
| Cli.PiecesText | cmd/create_privatekey_from_prefixes.py:125-126 | the prefixes hold exactly the unquoted argument's text other than separators and whitespace, in order |
| Cli.FirstNotAlnum | cmd/create_privatekey_from_prefixes.py:131-134 | the position found is the first prefix that fails `isalnum`; every prefix before it passes |
| Cli.CheckPrefixes | cmd/create_privatekey_from_prefixes.py:128-134 | the list passes unchanged only when it is non-empty and all alphanumeric; otherwise the error is the empty list or a prefix that fails `isalnum`, and it is the empty list exactly when the list is empty |
| Cli.ParsePrefixes | cmd/create_privatekey_from_prefixes.py:125-134 | an accepted prefix list is non-empty and all alphanumeric; it is rejected as empty exactly when no piece survives the clean-up, and otherwise only for a prefix that fails `isalnum` |
| Cli.CheckPrefixesOutcome | cmd/create_privatekey_from_prefixes.py:128-134 | an empty list is reported first, then the first prefix that is not alphanumeric; the list passes unchanged exactly when it is non-empty and all alphanumeric |
| Cli.ParseListCommand | cmd/create_privatekey_from_prefixes.py:121-140 | the usage error comes exactly when the argument count is wrong; an accepted list is non-empty and all alphanumeric; a bad interval needs a second argument |
| Cli.ParseSingleCommand | cmd/create_privatekey_from_prefix.py:64-78 | the usage error comes exactly when the argument count is wrong; an accepted prefix is alphanumeric; a bad interval needs a second argument |
| Cli.ListCommandOutcome | cmd/create_privatekey_from_prefixes.py:121-140 | the list script reports a wrong argument count first, then the prefix list, then a malformed interval; it starts a search, with the cleaned list and the interval given or 100 000, exactly when none applies |
| Cli.SingleCommandOutcome | cmd/create_privatekey_from_prefix.py:64-78 | the single script reports a wrong argument count first, then a stripped prefix that is not alphanumeric, then a malformed interval; otherwise it searches for the stripped prefix |
| Cli.UnquotePlain | cmd/create_privatekey_from_prefixes.py:125 | a list that starts and ends with a letter or digit loses only its surrounding double quotes |
| Cli.PrefixesRoundTrip | cmd/create_privatekey_from_prefixes.py:125-134 | a non-empty list of alphanumeric prefixes joined by commas, bare or in double quotes, reads back as the same list; this is the general round trip with no padding and single commas |
| Cli.KeepPadded | cmd/create_privatekey_from_prefixes.py:126 | alphanumeric pieces with any whitespace around them are all kept, stripped back to the prefixes |
| Cli.PiecesRuns | cmd/create_privatekey_from_prefixes.py:126 | alphanumeric prefixes with whitespace around them, joined by any non-empty runs of `;` and `,`, split and clean back into the same list |
| Cli.RunsEnds | cmd/create_privatekey_from_prefixes.py:125 | padded prefixes joined by runs have no quote at either end, so double quotes put around them come off again |
| Cli.PlainEnds | cmd/create_privatekey_from_prefixes.py:125 | with no whitespace before the first prefix or after the last, the joined list starts and ends with a letter or digit and unquoting leaves it alone |
| Cli.UnquoteQuoted | cmd/create_privatekey_from_prefixes.py:125 | a list with neither quote at its ends loses exactly the double quotes put around it |
| Cli.PrefixesRunsRoundTrip | cmd/create_privatekey_from_prefixes.py:125-134 | a non-empty list of alphanumeric prefixes, each with any whitespace around it, joined by any non-empty runs of `;` and `,`, reads back as the same list in double quotes, and bare when it starts and ends with a prefix |
| Cli.ExampleCommaList | cmd/create_privatekey_from_prefixes.py:26 | the usage example `ZUKU,BSV,GKS` reads as the prefixes ZUKU, BSV and GKS |
| Cli.ExampleSpacedList | cmd/create_privatekey_from_prefixes.py:27 | the usage example `ZUKU; BSV; GKS`, as the shell passes it, reads as the same three prefixes |
| Cli.ExampleQuotedList | cmd/create_privatekey_from_prefixes.py:11-14 | the list `"ZUKU; BSV; GKS"` with its double quotes still on reads as the same three prefixes |
| Cli.ListCommandRoundTrip | cmd/create_privatekey_from_prefixes.py:121-142 | a command line built from such a list, plus an optional rendered integer, starts the search for that list with that interval, or with 100 000 |
| Cli.SingleCommandRoundTrip | cmd/create_privatekey_from_prefix.py:64-81 | two command lines start the search for an alphanumeric prefix: the bare prefix alone, with the interval 100 000; and the prefix between a space and a newline followed by a rendered integer, with that integer as the interval |

## Left out

- Keys: private keys, addresses derived from them, and WIF export. These are
  calls into the `bitsv` library. The model takes the resulting addresses as an
  input sequence, and the random source (`secrets.token_hex`) with it.
- Time: the clock, elapsed times and rates. These are floating point and come
  from `time.perf_counter`. The `Status` event carries the attempt count and
  the number found, but not the elapsed time or the rate. The single script's
  JSON report computes `int(tries / elapsed)`
  (cmd/create_privatekey_from_prefix.py:52) with no `elapsed > 0` guard,
  unlike the status lines. If the clock had not advanced it could raise
  `ZeroDivisionError`; the `Found` outcome does not model this.
- Duration.RoundTrip: `format_duration` is modelled from the `int(seconds)`
  it computes first. Truncating a float is not modelled, and negative inputs
  are not modelled either: elapsed times are never negative.
- Output: printing, colours, clearing the screen, `save_to_file` and its JSON
  file, and the JSON report of the single script. A match is recorded as a
  `Match` event, or as the `Found` outcome.
- Number formatting: the `:,` thousands separators in the printed messages are
  not modelled. These are the interval in the start lines (`{interval:,}` at
  cmd/create_privatekey_from_prefix.py:80 and `{status_interval:,}` at
  cmd/create_privatekey_from_prefixes.py:87), the attempt counts (`{tries:,}`)
  and the rates (cmd/create_privatekey_from_prefix.py:61 and
  cmd/create_privatekey_from_prefixes.py:106).
- Cli.ListCommandOutcome, Cli.SingleCommandOutcome: each error is modelled as
  the `Error` value that ends the script. The message printed and `exit(1)`
  are not modelled.
- Text.IsAlnum: `str.isalnum` is modelled for ASCII letters and digits only.
  Python also accepts letters and digits from other scripts.
- Cli.ParseInt: Python's `int()` is modelled for ASCII decimal digits. It also
  accepts digits from other scripts, which are not modelled.
- Cli.ParseInt: the limit on the number of digits `int()` reads (4300 by
  default since Python 3.11 and in the security releases of 3.7 to 3.10) is
  not modelled. Cli.ParseIntFormat, Cli.ListCommandRoundTrip and
  Cli.SingleCommandRoundTrip therefore hold only for interpreters without the
  limit, or for intervals of at most 4300 digits.
- Concurrency: both scripts are single-threaded. Parallel search is not part
  of this model.
- Endless loops: a search that would loop forever ends, in the model, when the
  supplied addresses run out (`StreamEnd`).

=== FILE: arith.dfy ===
/** Facts about Dafny's Euclidean `/` and `%` that the solver does not find unaided. */
module Arith {

  function Abs(x: int): nat {
    if x < 0 then -x else x
  }

  /** A non-zero multiple of a non-zero number is at least that number's size away from zero. */
  lemma MultipleBound(k: int, d: int)
    ensures k != 0 && d != 0 ==> k * d >= Abs(d) || k * d <= -(Abs(d) as int)
  {
    if k != 0 && d != 0 {
      MultipleAtLeast(Abs(k), Abs(d));
      assert Abs(k * d) == Abs(k) * Abs(d);
    }
  }

  lemma {:induction false} MultipleAtLeast(k: nat, d: nat)
    requires k >= 1
    ensures k * d >= d
    decreases k
  {
    if k > 1 {
      MultipleAtLeast(k - 1, d);
      assert k * d == (k - 1) * d + d;
    }
  }

  /** Quotient and remainder are determined by the dividend and the divisor. */
  lemma DivModUnique(n: int, d: int, q: int, r: int)
    requires d != 0 && 0 <= r < Abs(d) && n == q * d + r
    ensures n / d == q && n % d == r
  {
    var k := q - n / d;
    assert k * d == n % d - r;
    MultipleBound(k, d);
  }

  /** A number divides `n` exactly when its negation does. */
  lemma DivModNegate(n: int, d: int)
    requires d != 0
    ensures n % d == 0 <==> n % -d == 0
  {
    if n % d == 0 {
      assert n == (-(n / d)) * (-d) + 0;
      DivModUnique(n, -d, -(n / d), 0);
    }
    if n % -d == 0 {
      assert n == (-(n / -d)) * d + 0;
      DivModUnique(n, d, -(n / -d), 0);
    }
  }
}

=== FILE: cli.dfy ===
/**
  The command lines of both scripts: the argument count, the cleaning of the
  prefix list (outer whitespace, then double quotes, then single quotes
  stripped; split on runs of `;` and `,`; every piece stripped and empty pieces
  dropped), the alphanumeric check, and the optional status interval read
  with Python's `int()`. Every error ends the script with exit status 1
  before any search starts.
*/
module Cli {
  import opened Wrappers
  import opened Text
  import opened Decimal

  const DefaultInterval: int := 100_000

  datatype Error =
    /** Fewer than one or more than two arguments. */
    | Usage
    /** The prefix list has no non-blank piece. */
    | EmptyList
    /** A prefix that is not alphanumeric (the single-prefix script does not print it). */
    | NotAlnum(prefix: string)
    /** The status interval is not an integer. */
    | BadInterval

  datatype ListJob = ListJob(prefixes: seq<string>, interval: int)
  datatype SingleJob = SingleJob(prefix: string, interval: int)

  // ---------------------------------------------------------------------------
  // `int(s)` for a decimal string.

  predicate IsUnderscore(c: char) {
    c == '_'
  }

  /** Digits, with single underscores allowed between two digits. */
  predicate Grouped(d: string) {
    && d != []
    && IsDigit(d[0]) && IsDigit(d[|d| - 1])
    && (forall i :: 0 <= i < |d| ==> IsDigit(d[i]) || IsUnderscore(d[i]))
    && (forall i :: 0 <= i < |d| - 1 ==> !(IsUnderscore(d[i]) && IsUnderscore(d[i + 1])))
  }

  /** The value of an unsigned digit group, if it is one. */
  function Unsigned(d: string): (r: Option<nat>)
    ensures r.Some? <==> Grouped(d)
  {
    if Grouped(d) then
      var digits := Without(d, IsUnderscore);
      assert AllDigits(digits) by { WithoutLeaves(d, IsUnderscore, IsDigit); }
      Some(Read(digits))
    else None
  }

  /** The characters of `s` that `drop` rejects all satisfy `keep` when every character satisfies one of them. */
  lemma {:induction false} WithoutLeaves(s: string, drop: char -> bool, keep: char -> bool)
    requires forall i :: 0 <= i < |s| ==> keep(s[i]) || drop(s[i])
    ensures AllOf(Without(s, drop), keep)
    decreases |s|
  {
    if s != [] {
      WithoutLeaves(s[1..], drop, keep);
    }
  }

  /** `int(t)` for a string without surrounding whitespace: an optional sign, then a digit group. */
  function Signed(t: string): Option<int> {
    if t != [] && (t[0] == '+' || t[0] == '-') then
      match Unsigned(t[1..])
      case None => None
      case Some(n) => Some(if t[0] == '-' then -(n as int) else n)
    else
      match Unsigned(t)
      case None => None
      case Some(n) => Some(n)
  }

  /**
    The whitespace `int()` ignores around a number: what `str.isspace`
    accepts, except the information separators 0x1C-0x1F, which `int()`
    rejects although `str.strip()` removes them.
  */
  predicate IsIntSpace(c: char) {
    IsSpace(c) && !('\U{1C}' <= c <= '\U{1F}')
  }

  /**
    `int(s)`: surrounding whitespace is ignored, an optional `+` or `-` comes
    first, then decimal digits in which single underscores may separate two
    digits. Anything else raises `ValueError`, here `None`. What is accepted,
    once the whitespace is gone, starts with a sign or a digit and ends with a
    digit.
  */
  function ParseInt(s: string): (r: Option<int>)
    ensures r.Some? ==> var t := Strip(s, IsIntSpace);
      t != [] && IsDigit(t[|t| - 1]) && (IsDigit(t[0]) || t[0] == '+' || t[0] == '-')
  {
    Signed(Strip(s, IsIntSpace))
  }

  /** `str(v)`: a minus sign for a negative number, then the digits of its magnitude. */
  function FormatInt(v: int): (s: string)
    ensures s != [] && (s[0] == '-' || IsDigit(s[0])) && IsDigit(s[|s| - 1])
    ensures s[0] == '-' <==> v < 0
  {
    if v < 0 then "-" + Show(-v) else Show(v)
  }

  /** The canonical rendering of a digit string is an unsigned digit group of its value. */
  lemma UnsignedShow(n: nat)
    ensures Unsigned(Show(n)) == Some(n)
  {
    var s := Show(n);
    assert NoneOf(s, IsUnderscore);
    WithoutNoneOf(s, IsUnderscore);
    ReadShow(n);
  }

  /** A digit or a minus sign is not whitespace. */
  lemma NumberCharNotSpace(c: char)
    requires IsDigit(c) || c == '-'
    ensures !IsSpace(c) && !IsIntSpace(c)
  {
  }

  /** Without a sign, `int` reads the canonical digits of `n` as `n`... */
  lemma SignedShow(n: nat)
    ensures Signed(Show(n)) == Some(n)
  {
    UnsignedShow(n);
  }

  /** ... and after a minus sign as `-n`. */
  lemma SignedMinusShow(n: nat)
    ensures Signed("-" + Show(n)) == Some(-(n as int))
  {
    assert ("-" + Show(n))[1..] == Show(n);
    UnsignedShow(n);
  }

  /** `int(str(v)) == v`, whatever the sign. */
  lemma ParseIntFormat(v: int)
    ensures ParseInt(FormatInt(v)) == Some(v)
  {
    FormatStripped(v);
    SignedFormat(v);
  }

  /** A rendered integer has no whitespace to strip. */
  lemma FormatStripped(v: int)
    ensures Strip(FormatInt(v), IsIntSpace) == FormatInt(v)
  {
    var s := FormatInt(v);
    NumberCharNotSpace(s[0]);
    NumberCharNotSpace(s[|s| - 1]);
    StripUnchanged(s, IsIntSpace);
  }

  /** The sign and the digits of a rendered integer read back as that integer. */
  lemma SignedFormat(v: int)
    ensures Signed(FormatInt(v)) == Some(v)
  {
    if v < 0 {
      assert FormatInt(v) == "-" + Show(-v);
      SignedMinusShow(-v);
    } else {
      assert FormatInt(v) == Show(v);
      SignedShow(v);
    }
  }

  /** `int()` accepts single underscores between digits... */
  lemma ParseIntGrouped()
    ensures ParseInt("1_0") == Some(10)
  {
    StripUnchanged("1_0", IsIntSpace);
    assert Without("1_0", IsUnderscore) == "10" by {
      assert "1_0"[1..] == "_0" && "_0"[1..] == "0" && "0"[1..] == [];
    }
    assert "10"[..1] == "1" && "1"[..0] == [];
  }

  /** ... and nowhere else. */
  lemma ParseIntMisgrouped()
    ensures ParseInt("1__0") == None && ParseInt("_1") == None && ParseInt("1_") == None
  {
    StripUnchanged("1__0", IsIntSpace);
    assert !Grouped("1__0") by { assert IsUnderscore("1__0"[1]) && IsUnderscore("1__0"[2]); }
    StripUnchanged("_1", IsIntSpace);
    StripUnchanged("1_", IsIntSpace);
  }

  /** `int()` ignores surrounding whitespace... */
  lemma ParseIntPadded()
    ensures ParseInt(" -7\n") == Some(-7)
  {
    assert " -7\n" == [' '] + "-7" + ['\n'];
    StripSurrounded(' ', "-7", '\n', IsIntSpace);
    assert FormatInt(-7) == "-7";
    ParseIntFormat(-7);
    StripUnchanged("-7", IsIntSpace);
  }

  /** ... but not the separator 0x1C, which `str.strip()` would remove... */
  lemma ParseIntSeparator()
    ensures ParseInt("\U{1C}7") == None
    ensures StripSpace("\U{1C}7") == "7"
  {
    StripUnchanged("\U{1C}7", IsIntSpace);
    assert "\U{1C}7" == ['\U{1C}'] + "7";
    assert Strip("\U{1C}7", IsSpace) == "7" by {
      assert SkipForward("\U{1C}7", 1, IsSpace) == 1;
      assert SkipBackward("\U{1C}7", 1, 2, IsSpace) == 2;
    }
  }

  /** ... nor whitespace after the sign, and it needs a digit. */
  lemma ParseIntNoDigits()
    ensures ParseInt("- 7") == None && ParseInt("-") == None && ParseInt("") == None
  {
    StripUnchanged("- 7", IsIntSpace);
    assert "- 7"[1..] == " 7";
    StripUnchanged("-", IsIntSpace);
  }

  // ---------------------------------------------------------------------------
  // The prefix list.

  /**
    `sys.argv[1].strip().strip('"').strip("'")`: no longer than the
    argument, and no single quote left at either end.
  */
  function Unquote(arg: string): (r: string)
    ensures |r| <= |arg|
    ensures r == [] || (r[0] != '\'' && r[|r| - 1] != '\'')
  {
    var q := StripChar(StripSpace(arg), '"');
    StripEnds(StripSpace(arg), Is('"'));
    StripEnds(q, Is('\''));
    StripChar(q, '\'')
  }

  /** `[p.strip() for p in pieces if p.strip()]`: no more pieces than before, and none of them empty. */
  function Keep(pieces: seq<string>): (r: seq<string>)
    ensures |r| <= |pieces|
    ensures forall k :: 0 <= k < |r| ==> r[k] != []
  {
    if pieces == [] then []
    else
      var p := StripSpace(pieces[0]);
      (if p == [] then [] else [p]) + Keep(pieces[1..])
  }

  /** The prefixes read from the first argument. */
  function Pieces(arg: string): seq<string> {
    Keep(SplitRuns(Unquote(arg)))
  }

  /** A prefix as the list leaves it: not blank, no whitespace at either end, no separator. */
  predicate Clean(p: string) {
    p != [] && !IsSpace(p[0]) && !IsSpace(p[|p| - 1]) && NoneOf(p, IsSep)
  }

  /** Keeping strips every piece, drops the blank ones, and adds no separator. */
  lemma {:induction false} KeepClean(pieces: seq<string>)
    requires forall k :: 0 <= k < |pieces| ==> NoneOf(pieces[k], IsSep)
    ensures forall k :: 0 <= k < |Keep(pieces)| ==> Clean(Keep(pieces)[k])
    decreases |pieces|
  {
    if pieces != [] {
      StripShape(pieces[0], IsSpace);
      StripKeepsNoneOf(pieces[0], IsSpace, IsSep);
      KeepClean(pieces[1..]);
    }
  }

  /** Every prefix read from the list is clean. */
  lemma PiecesClean(arg: string)
    ensures forall k :: 0 <= k < |Pieces(arg)| ==> Clean(Pieces(arg)[k])
  {
    KeepClean(SplitRuns(Unquote(arg)));
  }

  /** Keeping loses whitespace only. */
  lemma {:induction false} KeepText(pieces: seq<string>)
    ensures Without(Concat(Keep(pieces)), IsSpace) == Without(Concat(pieces), IsSpace)
    decreases |pieces|
  {
    if pieces != [] {
      var p, rest := pieces[0], pieces[1..];
      var q := StripSpace(p);
      KeepText(rest);
      StripKeepsRest(p, IsSpace);
      WithoutAppend(p, Concat(rest), IsSpace);
      if q == [] {
        assert Keep(pieces) == Keep(rest);
      } else {
        assert Keep(pieces) == [q] + Keep(rest);
        WithoutAppend(q, Concat(Keep(rest)), IsSpace);
      }
    }
  }

  /**
    The pieces hold exactly the text of the unquoted argument other than
    separators and whitespace, in order.
  */
  lemma PiecesText(arg: string)
    ensures Without(Concat(Pieces(arg)), IsSpace) == Without(Without(Unquote(arg), IsSep), IsSpace)
  {
    KeepText(SplitRuns(Unquote(arg)));
    SplitRunsKeepsText(Unquote(arg));
  }

  /** The positions below `n` whose mark is set, in the order they come. */
  function Positions(marks: seq<bool>, n: nat): (f: seq<nat>)
    requires n <= |marks|
    ensures forall k :: 0 <= k < |f| ==> f[k] < n
  {
    if n == 0 then [] else Positions(marks, n - 1) + (if marks[n - 1] then [n - 1] else [])
  }

  /** A position is listed exactly when its mark is set. */
  lemma {:induction false} PositionsExact(marks: seq<bool>, n: nat, i: nat)
    requires i < n <= |marks|
    ensures i in Positions(marks, n) <==> marks[i]
  {
    var f0 := Positions(marks, n - 1);
    assert Positions(marks, n) == f0 + (if marks[n - 1] then [n - 1] else []);
    if i < n - 1 {
      PositionsExact(marks, n - 1, i);
    } else {
      assert i !in f0;
    }
  }

  /** Each position comes after the one before it. */
  predicate Increasing(f: seq<nat>) {
    forall k, l :: 0 <= k < l < |f| ==> f[k] < f[l]
  }

  /** The positions are listed in increasing order. */
  lemma {:induction false} PositionsIncreasing(marks: seq<bool>, n: nat)
    requires n <= |marks|
    ensures Increasing(Positions(marks, n))
  {
    if n > 0 {
      var f0 := Positions(marks, n - 1);
      PositionsIncreasing(marks, n - 1);
      var f := Positions(marks, n);
      assert f == f0 + (if marks[n - 1] then [n - 1] else []);
      forall k, l | 0 <= k < l < |f| ensures f[k] < f[l] {
        if l < |f0| {
          assert f[k] == f0[k] && f[l] == f0[l];
        } else {
          assert f[k] == f0[k] && f[l] == n - 1;
        }
      }
    }
  }

  /** Which pieces are not blank once stripped. */
  function Marks(pieces: seq<string>): (m: seq<bool>)
    ensures |m| == |pieces|
  {
    if pieces == [] then [] else [StripSpace(pieces[0]) != []] + Marks(pieces[1..])
  }

  /** The mark of a piece says whether it is blank once stripped. */
  lemma {:induction false} MarkAt(pieces: seq<string>, i: nat)
    requires i < |pieces|
    ensures Marks(pieces)[i] <==> StripSpace(pieces[i]) != []
  {
    if i > 0 {
      MarkAt(pieces[1..], i - 1);
    }
  }

  /** The positions of the pieces the comprehension keeps: those not blank once stripped, in increasing order. */
  function KeptIndices(pieces: seq<string>): seq<nat> {
    Positions(Marks(pieces), |pieces|)
  }

  /**
    The kept positions are exactly those of the pieces that are not blank
    once stripped, and they come in increasing order.
  */
  lemma KeptIndicesExact(pieces: seq<string>)
    ensures forall i :: 0 <= i < |pieces| ==> (i in KeptIndices(pieces) <==> StripSpace(pieces[i]) != [])
    ensures Increasing(KeptIndices(pieces))
  {
    var f := KeptIndices(pieces);
    assert f == Positions(Marks(pieces), |pieces|);
    forall i | 0 <= i < |pieces| ensures i in f <==> StripSpace(pieces[i]) != [] {
      PositionsExact(Marks(pieces), |pieces|, i);
      MarkAt(pieces, i);
    }
    PositionsIncreasing(Marks(pieces), |pieces|);
  }

  /** Keeping distributes over concatenation: the pieces are handled one by one. */
  lemma {:induction false} KeepAppend(a: seq<string>, b: seq<string>)
    ensures Keep(a + b) == Keep(a) + Keep(b)
    decreases |a|
  {
    if a == [] {
      assert a + b == b;
    } else {
      assert (a + b)[1..] == a[1..] + b;
      KeepAppend(a[1..], b);
    }
  }

  /** Keeping the first `n` pieces gives, in order, the stripped pieces at the marked positions below `n`. */
  lemma {:induction false} KeepPrefixAt(pieces: seq<string>, n: nat)
    requires n <= |pieces|
    ensures var f := Positions(Marks(pieces), n);
      && |Keep(pieces[..n])| == |f|
      && forall k :: 0 <= k < |f| ==> Keep(pieces[..n])[k] == StripSpace(pieces[f[k]])
  {
    if n > 0 {
      var kept, f := Keep(pieces[..n - 1]), Positions(Marks(pieces), n - 1);
      var q := StripSpace(pieces[n - 1]);
      KeepPrefixAt(pieces, n - 1);
      assert Keep(pieces[..n]) == kept + (if q == [] then [] else [q]) by {
        assert pieces[..n] == pieces[..n - 1] + [pieces[n - 1]];
        KeepAppend(pieces[..n - 1], [pieces[n - 1]]);
        KeepOne(pieces[n - 1]);
      }
      assert Positions(Marks(pieces), n) == f + (if q == [] then [] else [n - 1]) by {
        MarkAt(pieces, n - 1);
      }
      IndexedSnoc(pieces, kept, f, n - 1);
    }
  }

  /** One piece is kept, stripped, unless it is blank. */
  lemma KeepOne(p: string)
    ensures Keep([p]) == (if StripSpace(p) == [] then [] else [StripSpace(p)])
  {
    assert [p][1..] == [];
  }

  /** Adding one more piece at position `i` extends the kept list and the kept positions alike. */
  lemma IndexedSnoc(pieces: seq<string>, kept: seq<string>, f: seq<nat>, i: nat)
    requires i < |pieces| && |kept| == |f|
    requires forall k :: 0 <= k < |f| ==> f[k] < |pieces| && kept[k] == StripSpace(pieces[f[k]])
    ensures var q := StripSpace(pieces[i]);
      var kept', f' := kept + (if q == [] then [] else [q]), f + (if q == [] then [] else [i]);
      && |kept'| == |f'|
      && forall k :: 0 <= k < |f'| ==> kept'[k] == StripSpace(pieces[f'[k]])
  {
  }

  /**
    `[p.strip() for p in pieces if p.strip()]`, piece by piece: the k-th
    prefix kept is the stripped piece at the k-th position whose stripped
    piece is not blank. Blank pieces are dropped, every other piece gives
    a prefix of its own, and the order is kept.
  */
  lemma KeepIndexed(pieces: seq<string>)
    ensures var f := KeptIndices(pieces);
      && |Keep(pieces)| == |f|
      && forall k :: 0 <= k < |f| ==> Keep(pieces)[k] == StripSpace(pieces[f[k]])
  {
    KeepPrefixAt(pieces, |pieces|);
    assert pieces[..|pieces|] == pieces;
  }

  /**
    The prefixes read from the first argument are its separated pieces,
    stripped, with the blank ones dropped: the k-th prefix is the k-th
    non-blank piece.
  */
  lemma PiecesIndexed(arg: string)
    ensures var pieces := SplitRuns(Unquote(arg));
      var f := KeptIndices(pieces);
      && |Pieces(arg)| == |f|
      && forall k :: 0 <= k < |f| ==> Pieces(arg)[k] == StripSpace(pieces[f[k]])
  {
    KeepIndexed(SplitRuns(Unquote(arg)));
  }

  /** A blank piece between two prefixes is dropped and the two stay apart: `A, ,B` reads as `A` and `B`. */
  lemma ExampleBlankPiece()
    ensures Keep(["A", " ", "B"]) == ["A", "B"]
  {
    var pieces := ["A", " ", "B"];
    BlankKept();
    KeepIndexed(pieces);
    var kept := Keep(pieces);
    assert kept[0] == StripSpace("A") == "A" by {
      StripUnchanged("A", IsSpace);
    }
    assert kept[1] == StripSpace("B") == "B" by {
      StripUnchanged("B", IsSpace);
    }
  }

  /** Of `A`, a space and `B`, the pieces kept are the first and the third. */
  lemma BlankKept()
    ensures KeptIndices(["A", " ", "B"]) == [0, 2]
  {
    var pieces := ["A", " ", "B"];
    assert StripSpace(" ") == [] by {
      assert SkipForward(" ", 0, IsSpace) == 1;
    }
    assert StripSpace("A") == "A" by {
      StripUnchanged("A", IsSpace);
    }
    assert StripSpace("B") == "B" by {
      StripUnchanged("B", IsSpace);
    }
    var m := Marks(pieces);
    MarkAt(pieces, 0);
    MarkAt(pieces, 1);
    MarkAt(pieces, 2);
    assert m == [true, false, true];
    assert Positions(m, 1) == [0];
    assert Positions(m, 2) == [0];
  }

  /** The position of the first piece that is not alphanumeric, or `|ps|`. */
  function FirstNotAlnum(ps: seq<string>): (i: nat)
    ensures i <= |ps|
    ensures forall j :: 0 <= j < i ==> IsAlnum(ps[j])
    ensures i < |ps| ==> !IsAlnum(ps[i])
  {
    if ps == [] then 0
    else if !IsAlnum(ps[0]) then 0
    else 1 + FirstNotAlnum(ps[1..])
  }

  /** The checks on the cleaned list: not empty, then every prefix alphanumeric, in list order. */
  function CheckPrefixes(ps: seq<string>): (r: Result<seq<string>, Error>)
    ensures r.Success? ==> r.value == ps && ps != [] && forall k :: 0 <= k < |ps| ==> IsAlnum(ps[k])
    ensures r.Failure? ==> r.error == EmptyList || (r.error.NotAlnum? && !IsAlnum(r.error.prefix))
    ensures r == Failure(EmptyList) <==> ps == []
  {
    if ps == [] then Failure(EmptyList)
    else
      var i := FirstNotAlnum(ps);
      if i < |ps| then Failure(NotAlnum(ps[i])) else Success(ps)
  }

  /**
    The prefix list, or the first error the script reports about it: an
    accepted list is non-empty and all alphanumeric, and it is rejected as
    empty exactly when no piece of it is left.
  */
  function ParsePrefixes(arg: string): (r: Result<seq<string>, Error>)
    ensures r.Success? ==> r.value != [] && forall k :: 0 <= k < |r.value| ==> IsAlnum(r.value[k])
    ensures r.Failure? ==> r.error == EmptyList || (r.error.NotAlnum? && !IsAlnum(r.error.prefix))
    ensures r == Failure(EmptyList) <==> Pieces(arg) == []
  {
    CheckPrefixes(Pieces(arg))
  }

  /** `int(sys.argv[2]) if len(sys.argv) == 3 else 100_000`. */
  function ParseInterval(argv: seq<string>): Result<int, Error> {
    if |argv| == 3 then
      match ParseInt(argv[2])
      case None => Failure(BadInterval)
      case Some(v) => Success(v)
    else Success(DefaultInterval)
  }

  /** The argument count check both scripts share: `argv` holds the script name and one or two arguments. */
  predicate ArgCountOk(argv: seq<string>) {
    2 <= |argv| <= 3
  }

  /**
    `create_privatekey_from_prefixes.py`: the checks in the order the script
    makes them. A wrong argument count is reported exactly when it is wrong,
    an accepted list is non-empty and all alphanumeric, and a bad interval
    needs an interval argument.
  */
  function ParseListCommand(argv: seq<string>): (r: Result<ListJob, Error>)
    ensures r == Failure(Usage) <==> !ArgCountOk(argv)
    ensures r.Success? ==> r.value.prefixes != [] && forall k :: 0 <= k < |r.value.prefixes| ==> IsAlnum(r.value.prefixes[k])
    ensures r == Failure(BadInterval) ==> |argv| == 3
  {
    if !ArgCountOk(argv) then Failure(Usage)
    else
      match ParsePrefixes(argv[1])
      case Failure(e) => Failure(e)
      case Success(ps) =>
        match ParseInterval(argv)
        case Failure(e) => Failure(e)
        case Success(n) => Success(ListJob(ps, n))
  }

  /**
    `create_privatekey_from_prefix.py`: the argument count, the stripped
    prefix, the interval. A wrong argument count is reported exactly when it
    is wrong, an accepted prefix is alphanumeric, and a bad interval needs an
    interval argument.
  */
  function ParseSingleCommand(argv: seq<string>): (r: Result<SingleJob, Error>)
    ensures r == Failure(Usage) <==> !ArgCountOk(argv)
    ensures r.Success? ==> IsAlnum(r.value.prefix)
    ensures r == Failure(BadInterval) ==> |argv| == 3
  {
    if !ArgCountOk(argv) then Failure(Usage)
    else
      var p := StripSpace(argv[1]);
      if !IsAlnum(p) then Failure(NotAlnum(p))
      else
        match ParseInterval(argv)
        case Failure(e) => Failure(e)
        case Success(n) => Success(SingleJob(p, n))
  }

  // ---------------------------------------------------------------------------
  // What the command lines accept and reject.

  /** The interval argument, read when present. */
  predicate IntervalOk(argv: seq<string>) {
    |argv| == 3 ==> ParseInt(argv[2]).Some?
  }

  /** The interval the search runs with. */
  function IntervalOf(argv: seq<string>): int
    requires IntervalOk(argv)
  {
    if |argv| == 3 then ParseInt(argv[2]).value else DefaultInterval
  }

  /** `ps[i]` is the first piece that is not alphanumeric. */
  predicate FirstBad(ps: seq<string>, i: int) {
    0 <= i < |ps| && !IsAlnum(ps[i]) && forall j :: 0 <= j < i ==> IsAlnum(ps[j])
  }

  /**
    The list checks report an empty list first, then the first prefix that is
    not alphanumeric, and pass the list on unchanged when neither applies.
  */
  lemma CheckPrefixesOutcome(ps: seq<string>)
    ensures var r := CheckPrefixes(ps);
      && (r == Failure(EmptyList) <==> ps == [])
      && (forall p :: r == Failure(NotAlnum(p)) <==> exists i :: FirstBad(ps, i) && p == ps[i])
      && (r.Success? <==> ps != [] && forall k :: 0 <= k < |ps| ==> IsAlnum(ps[k]))
      && (r.Success? ==> r.value == ps)
      && (r.Failure? ==> r.error.EmptyList? || r.error.NotAlnum?)
  {
    var i := FirstNotAlnum(ps);
    forall p ensures CheckPrefixes(ps) == Failure(NotAlnum(p)) <==> exists j :: FirstBad(ps, j) && p == ps[j] {
      if exists j :: FirstBad(ps, j) && p == ps[j] {
        var j :| FirstBad(ps, j) && p == ps[j];
        FirstBadUnique(ps, i, j);
      }
      if CheckPrefixes(ps) == Failure(NotAlnum(p)) {
        assert FirstBad(ps, i);
      }
    }
  }

  /** The first bad position is unique. */
  lemma FirstBadUnique(ps: seq<string>, i: nat, j: int)
    requires i <= |ps| && (forall k :: 0 <= k < i ==> IsAlnum(ps[k])) && (i < |ps| ==> !IsAlnum(ps[i]))
    requires FirstBad(ps, j)
    ensures i == j
  {
  }

  /**
    The list script reports the argument count first, then what is wrong with
    the prefix list, then a malformed interval; it starts a search only when
    none of these apply, on the cleaned list and the interval given.
  */
  lemma ListCommandOutcome(argv: seq<string>)
    ensures var r := ParseListCommand(argv);
      && (r == Failure(Usage) <==> !ArgCountOk(argv))
      && (ArgCountOk(argv) && ParsePrefixes(argv[1]).Failure? ==> r == Failure(ParsePrefixes(argv[1]).error))
      && (r == Failure(BadInterval) <==> ArgCountOk(argv) && ParsePrefixes(argv[1]).Success? && !IntervalOk(argv))
      && (r.Success? <==> ArgCountOk(argv) && ParsePrefixes(argv[1]).Success? && IntervalOk(argv))
      && (r.Success? ==> r.value == ListJob(ParsePrefixes(argv[1]).value, IntervalOf(argv)))
  {
    if ArgCountOk(argv) {
      CheckPrefixesOutcome(Pieces(argv[1]));
    }
  }

  /**
    The single-prefix script reports the argument count first, then a
    stripped prefix that is not alphanumeric, then a malformed interval.
  */
  lemma SingleCommandOutcome(argv: seq<string>)
    ensures var r := ParseSingleCommand(argv);
      && (r == Failure(Usage) <==> !ArgCountOk(argv))
      && (forall p :: r == Failure(NotAlnum(p)) <==>
            ArgCountOk(argv) && p == StripSpace(argv[1]) && !IsAlnum(p))
      && (r == Failure(BadInterval) <==> ArgCountOk(argv) && IsAlnum(StripSpace(argv[1])) && !IntervalOk(argv))
      && (r.Success? <==> ArgCountOk(argv) && IsAlnum(StripSpace(argv[1])) && IntervalOk(argv))
      && (r.Success? ==> r.value == SingleJob(StripSpace(argv[1]), IntervalOf(argv)))
  {
  }

  // ---------------------------------------------------------------------------
  // Round trips: a well-formed command line gives back what it was built from.

  /** An alphanumeric string holds no separator, whitespace or quote. */
  lemma AlnumPlain(p: string)
    requires IsAlnum(p)
    ensures NoneOf(p, IsSep) && NoneOf(p, IsSpace)
    ensures !IsSpace(p[0]) && !IsSpace(p[|p| - 1])
    ensures p[0] != '"' && p[|p| - 1] != '"' && p[0] != '\'' && p[|p| - 1] != '\''
  {
  }

  /** A joined list that starts and ends with a letter or digit is not unquoted any further. */
  lemma UnquotePlain(s: string)
    requires s != [] && IsAlnumChar(s[0]) && IsAlnumChar(s[|s| - 1])
    ensures Unquote(s) == s
    ensures Unquote("\"" + s + "\"") == s
  {
    StripUnchanged(s, IsSpace);
    StripUnchanged(s, Is('"'));
    StripUnchanged(s, Is('\''));
    var quoted := "\"" + s + "\"";
    assert quoted == ['"'] + s + ['"'];
    StripUnchanged(quoted, IsSpace);
    StripSurrounded('"', s, '"', Is('"'));
  }

  /** Whitespace only, word by word. */
  predicate Blank(ws: seq<string>) {
    forall k :: 0 <= k < |ws| ==> AllOf(ws[k], IsSpace)
  }

  /** Every prefix with its own whitespace before and after it. */
  function Pad(before: seq<string>, ps: seq<string>, after: seq<string>): (r: seq<string>)
    requires |before| == |ps| == |after|
    ensures |r| == |ps|
    ensures forall k :: 0 <= k < |r| ==> r[k] == before[k] + ps[k] + after[k]
  {
    if ps == [] then []
    else [before[0] + ps[0] + after[0]] + Pad(before[1..], ps[1..], after[1..])
  }

  /**
    An alphanumeric prefix with whitespace around it is a non-empty word
    without separators; no quote is at either end, and where there is no
    padding the end is a letter or digit.
  */
  lemma PaddedWord(b: string, p: string, a: string)
    requires AllOf(b, IsSpace) && IsAlnum(p) && AllOf(a, IsSpace)
    ensures var w := b + p + a;
      && w != [] && NoneOf(w, IsSep)
      && w[0] != '"' && w[0] != '\'' && w[|w| - 1] != '"' && w[|w| - 1] != '\''
      && (b == [] ==> IsAlnumChar(w[0])) && (a == [] ==> IsAlnumChar(w[|w| - 1]))
  {
    var w := b + p + a;
    forall k | 0 <= k < |w| ensures !IsSep(w[k]) {
      if k < |b| {
        assert w[k] == b[k];
      } else if k < |b| + |p| {
        assert w[k] == p[k - |b|];
      } else {
        assert w[k] == a[k - |b| - |p|];
      }
    }
    if b == [] {
      assert w[0] == p[0];
    } else {
      assert w[0] == b[0];
    }
    if a == [] {
      assert w[|w| - 1] == p[|p| - 1];
    } else {
      assert w[|w| - 1] == a[|a| - 1];
    }
  }

  /** Keeping strips the padding of every prefix and keeps them all. */
  lemma {:induction false} KeepPadded(before: seq<string>, ps: seq<string>, after: seq<string>)
    requires |before| == |ps| == |after| && Blank(before) && Blank(after)
    requires forall k :: 0 <= k < |ps| ==> IsAlnum(ps[k])
    ensures Keep(Pad(before, ps, after)) == ps
    decreases |ps|
  {
    if ps != [] {
      var ws := Pad(before, ps, after);
      assert ws == [before[0] + ps[0] + after[0]] + Pad(before[1..], ps[1..], after[1..]);
      AlnumPlain(ps[0]);
      StripPadded(before[0], ps[0], after[0], IsSpace);
      KeepPadded(before[1..], ps[1..], after[1..]);
      KeepCons(before[0] + ps[0] + after[0], Pad(before[1..], ps[1..], after[1..]), ps[0]);
      assert ps == [ps[0]] + ps[1..];
    }
  }

  /** A piece that strips to something non-blank is kept, stripped, in front of the rest. */
  lemma KeepCons(p: string, rest: seq<string>, q: string)
    requires StripSpace(p) == q && q != []
    ensures Keep([p] + rest) == [q] + Keep(rest)
  {
    assert ([p] + rest)[1..] == rest;
  }

  /** A list with neither quotes nor whitespace at its ends loses only the double quotes around it. */
  lemma UnquoteQuoted(s: string)
    requires s != [] && s[0] != '"' && s[0] != '\'' && s[|s| - 1] != '"' && s[|s| - 1] != '\''
    ensures Unquote("\"" + s + "\"") == s
  {
    var quoted := "\"" + s + "\"";
    assert quoted == ['"'] + s + ['"'];
    StripUnchanged(quoted, IsSpace);
    StripSurrounded('"', s, '"', Is('"'));
    StripUnchanged(s, Is('\''));
  }

  /** Splitting padded alphanumeric prefixes joined by separator runs, and keeping the pieces, gives the prefixes back. */
  lemma PiecesRuns(before: seq<string>, ps: seq<string>, after: seq<string>, runs: seq<string>)
    requires ps != [] && forall k :: 0 <= k < |ps| ==> IsAlnum(ps[k])
    requires |before| == |ps| == |after| && Blank(before) && Blank(after)
    requires |runs| == |ps| - 1 && forall k :: 0 <= k < |runs| ==> runs[k] != [] && AllOf(runs[k], IsSep)
    ensures Keep(SplitRuns(JoinRuns(Pad(before, ps, after), runs))) == ps
  {
    var ws := Pad(before, ps, after);
    forall k | 0 <= k < |ws| ensures ws[k] != [] && NoneOf(ws[k], IsSep) {
      PaddedWord(before[k], ps[k], after[k]);
    }
    assert RunsShape(ws, runs);
    SplitRunsJoinRuns(ws, runs);
    KeepPadded(before, ps, after);
  }

  /** The ends of padded prefixes joined by runs: no quote at either end, so the double quotes put round them come off again. */
  lemma RunsEnds(before: seq<string>, ps: seq<string>, after: seq<string>, runs: seq<string>)
    requires ps != [] && forall k :: 0 <= k < |ps| ==> IsAlnum(ps[k])
    requires |before| == |ps| == |after| && Blank(before) && Blank(after)
    requires |runs| == |ps| - 1
    ensures var s := JoinRuns(Pad(before, ps, after), runs);
      && s != [] && s[0] != '"' && s[0] != '\'' && s[|s| - 1] != '"' && s[|s| - 1] != '\''
      && Unquote("\"" + s + "\"") == s
  {
    var ws := Pad(before, ps, after);
    forall k | 0 <= k < |ws| ensures ws[k] != [] {
      PaddedWord(before[k], ps[k], after[k]);
    }
    JoinRunsEnds(ws, runs);
    PaddedWord(before[0], ps[0], after[0]);
    var last := |ps| - 1;
    PaddedWord(before[last], ps[last], after[last]);
    UnquoteQuoted(JoinRuns(ws, runs));
  }

  /** With no whitespace before the first prefix or after the last, the joined list starts and ends with a letter or digit, so unquoting leaves it alone. */
  lemma PlainEnds(before: seq<string>, ps: seq<string>, after: seq<string>, runs: seq<string>)
    requires ps != [] && forall k :: 0 <= k < |ps| ==> IsAlnum(ps[k])
    requires |before| == |ps| == |after| && Blank(before) && Blank(after)
    requires |runs| == |ps| - 1
    requires before[0] == [] && after[|ps| - 1] == []
    ensures var s := JoinRuns(Pad(before, ps, after), runs);
      && s != [] && IsAlnumChar(s[0]) && IsAlnumChar(s[|s| - 1]) && Unquote(s) == s
  {
    var ws := Pad(before, ps, after);
    forall k | 0 <= k < |ws| ensures ws[k] != [] {
      PaddedWord(before[k], ps[k], after[k]);
    }
    JoinRunsEnds(ws, runs);
    PaddedWord(before[0], ps[0], after[0]);
    var last := |ps| - 1;
    PaddedWord(before[last], ps[last], after[last]);
    UnquotePlain(JoinRuns(ws, runs));
  }

  /**
    Alphanumeric prefixes, each with any whitespace around it, joined by any
    non-empty runs of `;` and `,`, read back as the same list: in double
    quotes always, and bare when the list starts and ends with a prefix.
  */
  lemma PrefixesRunsRoundTrip(before: seq<string>, ps: seq<string>, after: seq<string>, runs: seq<string>)
    requires ps != [] && forall k :: 0 <= k < |ps| ==> IsAlnum(ps[k])
    requires |before| == |ps| == |after| && Blank(before) && Blank(after)
    requires |runs| == |ps| - 1 && forall k :: 0 <= k < |runs| ==> runs[k] != [] && AllOf(runs[k], IsSep)
    ensures ParsePrefixes("\"" + JoinRuns(Pad(before, ps, after), runs) + "\"") == Success(ps)
    ensures before[0] == [] && after[|ps| - 1] == [] ==> ParsePrefixes(JoinRuns(Pad(before, ps, after), runs)) == Success(ps)
  {
    var s := JoinRuns(Pad(before, ps, after), runs);
    assert Keep(SplitRuns(s)) == ps by {
      PiecesRuns(before, ps, after, runs);
    }
    assert ParsePrefixes("\"" + s + "\"") == Success(ps) by {
      RunsEnds(before, ps, after, runs);
      ReadsAs("\"" + s + "\"", ps);
    }
    if before[0] == [] && after[|ps| - 1] == [] {
      assert ParsePrefixes(s) == Success(ps) by {
        PlainEnds(before, ps, after, runs);
        ReadsAs(s, ps);
      }
    }
  }

  /** An argument whose pieces are a non-empty list of alphanumeric prefixes reads as those prefixes. */
  lemma ReadsAs(arg: string, ps: seq<string>)
    requires Pieces(arg) == ps && ps != [] && forall k :: 0 <= k < |ps| ==> IsAlnum(ps[k])
    ensures ParsePrefixes(arg) == Success(ps)
  {
    CheckPrefixesOutcome(ps);
  }

  /** The first usage example, `ZUKU,BSV,GKS`. */
  lemma ExampleCommaList()
    ensures ParsePrefixes("ZUKU,BSV,GKS") == Success(["ZUKU", "BSV", "GKS"])
  {
    var ps := ["ZUKU", "BSV", "GKS"];
    var none := ["", "", ""];
    assert Pad(none, ps, none) == ps by {
      forall k | 0 <= k < 3 ensures Pad(none, ps, none)[k] == ps[k] {
        assert none[k] == [];
      }
    }
    assert JoinRuns(ps, [",", ","]) == "ZUKU,BSV,GKS";
    PrefixesRunsRoundTrip(none, ps, none, [",", ","]);
  }

  /** The second usage example, `ZUKU; BSV; GKS`, bare as the shell passes it. */
  lemma ExampleSpacedList()
    ensures ParsePrefixes("ZUKU; BSV; GKS") == Success(["ZUKU", "BSV", "GKS"])
  {
    SpacedJoin();
    PrefixesRunsRoundTrip(["", " ", " "], ["ZUKU", "BSV", "GKS"], ["", "", ""], [";", ";"]);
  }

  /** The second usage example still in its double quotes. */
  lemma ExampleQuotedList()
    ensures ParsePrefixes("\"" + "ZUKU; BSV; GKS" + "\"") == Success(["ZUKU", "BSV", "GKS"])
  {
    SpacedJoin();
    PrefixesRunsRoundTrip(["", " ", " "], ["ZUKU", "BSV", "GKS"], ["", "", ""], [";", ";"]);
  }

  /** `ZUKU; BSV; GKS` is the three prefixes, the last two after a space, joined by single semicolons. */
  lemma SpacedJoin()
    ensures JoinRuns(Pad(["", " ", " "], ["ZUKU", "BSV", "GKS"], ["", "", ""]), [";", ";"]) == "ZUKU; BSV; GKS"
  {
    var ws := Pad(["", " ", " "], ["ZUKU", "BSV", "GKS"], ["", "", ""]);
    assert ws[0] == "ZUKU" by {
      assert ws[0] == [] + "ZUKU" + [];
    }
    assert ws[1] == " BSV" by {
      assert ws[1] == " " + "BSV" + [];
    }
    assert ws[2] == " GKS" by {
      assert ws[2] == " " + "GKS" + [];
    }
    assert JoinRuns(ws[2..], []) == " GKS";
    assert JoinRuns(ws[1..], [";"]) == " BSV" + ";" + " GKS";
  }

  /** Prefixes without padding: every prefix stands as it is. */
  lemma PadNone(ps: seq<string>)
    ensures Pad(Repeat([], |ps|), ps, Repeat([], |ps|)) == ps
  {
    var none := Repeat([], |ps|);
    forall k | 0 <= k < |ps| ensures Pad(none, ps, none)[k] == ps[k] {
      assert none[k] == [];
    }
  }

  /**
    A non-empty list of alphanumeric prefixes joined by commas, bare or in
    double quotes, reads back as the same list: the case of the general
    round trip with no padding and single commas.
  */
  lemma PrefixesRoundTrip(ps: seq<string>)
    requires ps != [] && forall k :: 0 <= k < |ps| ==> IsAlnum(ps[k])
    ensures ParsePrefixes(JoinWith(ps, ',')) == Success(ps)
    ensures ParsePrefixes("\"" + JoinWith(ps, ',') + "\"") == Success(ps)
  {
    var none, commas := Repeat([], |ps|), Repeat(",", |ps| - 1);
    CommaList(ps);
    PrefixesRunsRoundTrip(none, ps, none, commas);
  }

  /** A comma-joined list is the list without padding, joined by runs that are each one comma. */
  lemma CommaList(ps: seq<string>)
    requires ps != []
    ensures var none, commas := Repeat([], |ps|), Repeat(",", |ps| - 1);
      && JoinWith(ps, ',') == JoinRuns(Pad(none, ps, none), commas)
      && Blank(none) && none[0] == [] && none[|ps| - 1] == []
      && forall k :: 0 <= k < |commas| ==> commas[k] != [] && AllOf(commas[k], IsSep)
  {
    var none, commas := Repeat([], |ps|), Repeat(",", |ps| - 1);
    PadNone(ps);
    JoinWithRuns(ps, ',');
    assert AllOf(",", IsSep);
  }

  /** A command line whose prefix list and interval both read, starts the search for them. */
  lemma ListCommandAccepts(argv: seq<string>, ps: seq<string>)
    requires ArgCountOk(argv) && ParsePrefixes(argv[1]) == Success(ps) && IntervalOk(argv)
    ensures ParseListCommand(argv) == Success(ListJob(ps, IntervalOf(argv)))
  {
  }

  /**
    A command line made of a comma-joined list of alphanumeric prefixes and,
    optionally, a rendered integer starts the search for that list with that
    interval, or with the default one.
  */
  lemma ListCommandRoundTrip(prog: string, ps: seq<string>, interval: int)
    requires ps != [] && forall k :: 0 <= k < |ps| ==> IsAlnum(ps[k])
    ensures ParseListCommand([prog, JoinWith(ps, ',')]) == Success(ListJob(ps, DefaultInterval))
    ensures ParseListCommand([prog, JoinWith(ps, ','), FormatInt(interval)]) == Success(ListJob(ps, interval))
  {
    var arg := JoinWith(ps, ',');
    PrefixesRoundTrip(ps);
    assert ParseListCommand([prog, arg]) == Success(ListJob(ps, DefaultInterval)) by {
      ListCommandAccepts([prog, arg], ps);
    }
    assert ParseListCommand([prog, arg, FormatInt(interval)]) == Success(ListJob(ps, interval)) by {
      ParseIntFormat(interval);
      ListCommandAccepts([prog, arg, FormatInt(interval)], ps);
    }
  }

  /** A command line whose stripped prefix is alphanumeric and whose interval reads, starts the search for them. */
  lemma SingleCommandAccepts(argv: seq<string>, p: string)
    requires ArgCountOk(argv) && StripSpace(argv[1]) == p && IsAlnum(p) && IntervalOk(argv)
    ensures ParseSingleCommand(argv) == Success(SingleJob(p, IntervalOf(argv)))
  {
  }

  /** An alphanumeric prefix, padded with whitespace or not, and an optional rendered integer start that search. */
  lemma SingleCommandRoundTrip(prog: string, p: string, interval: int)
    requires IsAlnum(p)
    ensures ParseSingleCommand([prog, p]) == Success(SingleJob(p, DefaultInterval))
    ensures ParseSingleCommand([prog, " " + p + "\n", FormatInt(interval)]) == Success(SingleJob(p, interval))
  {
    AlnumPlain(p);
    StripUnchanged(p, IsSpace);
    SingleCommandAccepts([prog, p], p);
    var padded := " " + p + "\n";
    assert padded == [' '] + p + ['\n'];
    StripSurrounded(' ', p, '\n', IsSpace);
    ParseIntFormat(interval);
    SingleCommandAccepts([prog, padded, FormatInt(interval)], p);
  }
}

=== FILE: decimal.dfy ===
/**
  Decimal rendering of natural numbers, as Python's `f"{n}"` produces it for
  a non-negative `int`, and its inverse.
*/
module Decimal {

  predicate IsDigit(c: char) {
    '0' <= c <= '9'
  }

  predicate AllDigits(s: string) {
    forall i :: 0 <= i < |s| ==> IsDigit(s[i])
  }

  /** The character of the digit `d`. */
  function DigitChar(d: nat): (c: char)
    requires d < 10
    ensures IsDigit(c)
  {
    ('0' as int + d) as char
  }

  /** The value of the digit character `c`. */
  function DigitValue(c: char): (d: nat)
    requires IsDigit(c)
    ensures d < 10
    ensures DigitChar(d) == c
  {
    (c as int - '0' as int) as nat
  }

  /** `str(n)` for `n >= 0`: at least one digit, and no leading zero unless `n` is 0. */
  function Show(n: nat): (s: string)
    ensures |s| >= 1 && AllDigits(s)
    ensures s[0] == '0' <==> n == 0
    ensures (s[0] == '0') ==> s == "0"
  {
    if n < 10 then [DigitChar(n)] else Show(n / 10) + [DigitChar(n % 10)]
  }

  /** The value of a string of decimal digits (the empty string reads as 0). */
  function Read(s: string): nat
    requires AllDigits(s)
  {
    if s == [] then 0 else Read(s[..|s| - 1]) * 10 + DigitValue(s[|s| - 1])
  }

  /** Reading back a rendered number gives the number. */
  lemma {:induction false} ReadShow(n: nat)
    ensures Read(Show(n)) == n
  {
    if n >= 10 {
      var s := Show(n);
      assert s[..|s| - 1] == Show(n / 10);
      ReadShow(n / 10);
    }
  }

  /** A digit string that does not start with a digit 0 reads as a positive number. */
  lemma {:induction false} ReadPositive(s: string)
    requires AllDigits(s) && |s| >= 1 && s[0] != '0'
    ensures Read(s) > 0
    decreases |s|
  {
    if |s| > 1 {
      ReadPositive(s[..|s| - 1]);
    }
  }

  /** Rendering the value of a canonical digit string gives the string back. */
  lemma {:induction false} ShowRead(s: string)
    requires AllDigits(s) && |s| >= 1
    requires s[0] == '0' ==> |s| == 1
    ensures Show(Read(s)) == s
    decreases |s|
  {
    if |s| > 1 {
      var t := s[..|s| - 1];
      ReadPositive(t);
      ShowRead(t);
      var n := Read(s);
      assert n / 10 == Read(t) && n % 10 == DigitValue(s[|s| - 1]);
      assert s == t + [s[|s| - 1]];
    }
  }
}

=== FILE: duration.dfy ===
/**
  `format_duration`: a whole number of seconds broken down by successive
  `divmod` steps into years of 365 days, days, hours, minutes and seconds, and
  rendered as space-separated `<count><unit>` words in which zero years, days,
  hours and minutes are skipped while the seconds are always written.
*/
module Duration {
  import opened Wrappers
  import opened Text
  import opened Decimal
  import opened Arith

  const SecondsPerMinute: nat := 60
  const SecondsPerHour: nat := 3600
  const SecondsPerDay: nat := 24 * 3600
  const SecondsPerYear: nat := 365 * 24 * 3600

  /** The result of the `divmod` chain. */
  datatype Breakdown = Breakdown(years: nat, days: nat, hours: nat, minutes: nat, seconds: nat)

  /** Every component below the largest one is under its carry limit. */
  predicate Normal(b: Breakdown) {
    b.days < 365 && b.hours < 24 && b.minutes < 60 && b.seconds < 60
  }

  /** The number of seconds a breakdown stands for. */
  function TotalSeconds(b: Breakdown): nat {
    b.years * SecondsPerYear + b.days * SecondsPerDay + b.hours * SecondsPerHour
      + b.minutes * SecondsPerMinute + b.seconds
  }

  /** `divmod(sec, 365*24*3600)`, then by a day, an hour and a minute. */
  function Decompose(total: nat): (b: Breakdown)
    ensures Normal(b)
    ensures TotalSeconds(b) == total
  {
    var years, r1 := total / SecondsPerYear, total % SecondsPerYear;
    var days, r2 := r1 / SecondsPerDay, r1 % SecondsPerDay;
    var hours, r3 := r2 / SecondsPerHour, r2 % SecondsPerHour;
    var minutes, seconds := r3 / SecondsPerMinute, r3 % SecondsPerMinute;
    Breakdown(years, days, hours, minutes, seconds)
  }

  /** A normal breakdown is the only one of its total: decomposing its total gives it back. */
  lemma DecomposeTotal(b: Breakdown)
    requires Normal(b)
    ensures Decompose(TotalSeconds(b)) == b
  {
    var rest := b.days * SecondsPerDay + b.hours * SecondsPerHour + b.minutes * SecondsPerMinute + b.seconds;
    assert rest < SecondsPerYear;
    DivModUnique(TotalSeconds(b), SecondsPerYear, b.years, rest);
    var rest2 := b.hours * SecondsPerHour + b.minutes * SecondsPerMinute + b.seconds;
    DivModUnique(rest, SecondsPerDay, b.days, rest2);
    var rest3 := b.minutes * SecondsPerMinute + b.seconds;
    DivModUnique(rest2, SecondsPerHour, b.hours, rest3);
    DivModUnique(rest3, SecondsPerMinute, b.minutes, b.seconds);
  }

  datatype Unit = Years | Days | Hours | Minutes | Seconds

  /** The letter written after the count. */
  function Suffix(u: Unit): char {
    match u
    case Years => 'y'
    case Days => 'd'
    case Hours => 'h'
    case Minutes => 'm'
    case Seconds => 's'
  }

  /** The unit a letter stands for, if any. */
  function UnitOf(c: char): (u: Option<Unit>)
    ensures u.Some? ==> Suffix(u.value) == c
    ensures forall v: Unit :: c == Suffix(v) ==> u == Some(v)
  {
    if c == 'y' then Some(Years)
    else if c == 'd' then Some(Days)
    else if c == 'h' then Some(Hours)
    else if c == 'm' then Some(Minutes)
    else if c == 's' then Some(Seconds)
    else None
  }

  function Weight(u: Unit): nat {
    match u
    case Years => SecondsPerYear
    case Days => SecondsPerDay
    case Hours => SecondsPerHour
    case Minutes => SecondsPerMinute
    case Seconds => 1
  }

  /** Position of a unit in the rendering: years first, seconds last. */
  function Rank(u: Unit): nat {
    match u
    case Years => 0
    case Days => 1
    case Hours => 2
    case Minutes => 3
    case Seconds => 4
  }

  datatype Part = Part(count: nat, unit: Unit)

  /** The seconds a list of parts stands for. */
  function Value(ps: seq<Part>): nat {
    if ps == [] then 0 else ps[0].count * Weight(ps[0].unit) + Value(ps[1..])
  }

  lemma {:induction false} ValueAppend(a: seq<Part>, b: seq<Part>)
    ensures Value(a + b) == Value(a) + Value(b)
    decreases |a|
  {
    if a == [] {
      assert a + b == b;
    } else {
      assert (a + b)[1..] == a[1..] + b;
      ValueAppend(a[1..], b);
    }
  }

  /** Units in strictly increasing rank. */
  predicate Ordered(ps: seq<Part>) {
    forall i, j :: 0 <= i < j < |ps| ==> Rank(ps[i].unit) < Rank(ps[j].unit)
  }

  /**
    The parts with a non-zero count (`if years: parts.append(...)` and so on),
    in their original order; dropping them leaves the value unchanged.
  */
  function NonZero(ps: seq<Part>): (r: seq<Part>)
    ensures forall i :: 0 <= i < |r| ==> r[i].count > 0 && r[i] in ps
    ensures Ordered(ps) ==> Ordered(r)
    ensures Value(r) == Value(ps)
  {
    if ps == [] then []
    else if ps[0].count == 0 then NonZero(ps[1..])
    else
      var rest := NonZero(ps[1..]);
      assert forall i :: 0 <= i < |rest| ==> rest[i] in ps[1..];
      [ps[0]] + rest
  }

  /** Nothing non-zero is dropped. */
  lemma {:induction false} NonZeroKeeps(ps: seq<Part>, q: Part)
    requires q in ps && q.count > 0
    ensures q in NonZero(ps)
    decreases |ps|
  {
    if ps[0] != q {
      assert q in ps[1..] by { assert ps == [ps[0]] + ps[1..]; }
      NonZeroKeeps(ps[1..], q);
    }
  }

  /** The four parts that are written only when non-zero. */
  function Larger(b: Breakdown): seq<Part> {
    [Part(b.years, Years), Part(b.days, Days), Part(b.hours, Hours), Part(b.minutes, Minutes)]
  }

  /** The larger parts come in rank order, none is seconds, and with the seconds they make the total. */
  lemma LargerFacts(b: Breakdown)
    ensures Ordered(Larger(b))
    ensures forall i :: 0 <= i < |Larger(b)| ==> Rank(Larger(b)[i].unit) < Rank(Seconds)
    ensures Value(Larger(b)) + b.seconds == TotalSeconds(b)
  {
    var larger := Larger(b);
    assert Value(larger) == Value(larger[..1]) + Value(larger[1..]) by {
      assert larger == larger[..1] + larger[1..];
      ValueAppend(larger[..1], larger[1..]);
    }
    assert Value(larger[1..]) == b.days * SecondsPerDay + Value(larger[2..]);
    assert Value(larger[2..]) == b.hours * SecondsPerHour + Value(larger[3..]);
    assert Value(larger[3..]) == b.minutes * SecondsPerMinute;
  }

  /** Ordered parts ranked below seconds, followed by the seconds, are still ordered. */
  lemma OrderedThenSeconds(kept: seq<Part>, s: nat)
    requires Ordered(kept) && forall i :: 0 <= i < |kept| ==> Rank(kept[i].unit) < Rank(Seconds)
    ensures Ordered(kept + [Part(s, Seconds)])
  {
    var ps := kept + [Part(s, Seconds)];
    forall i, j | 0 <= i < j < |ps|
      ensures Rank(ps[i].unit) < Rank(ps[j].unit)
    {
      assert ps[i] == kept[i];
      if j < |kept| {
        assert ps[j] == kept[j];
      }
    }
  }

  /**
    The parts that get rendered: units in y, d, h, m, s order; a year, day,
    hour or minute count is written exactly when it is non-zero, and then
    with its own count; the seconds always come last, even when zero; and
    together they stand for the breakdown's total.
  */
  function Parts(b: Breakdown): (ps: seq<Part>)
    ensures |ps| >= 1 && ps[|ps| - 1] == Part(b.seconds, Seconds)
    ensures forall i :: 0 <= i < |ps| - 1 ==> ps[i].count > 0 && ps[i].unit != Seconds && ps[i] in Larger(b)
    ensures forall q :: q in Larger(b) && q.count > 0 ==> q in ps
    ensures Ordered(ps)
    ensures Value(ps) == TotalSeconds(b)
  {
    var kept := NonZero(Larger(b));
    LargerFacts(b);
    forall q | q in Larger(b) && q.count > 0 ensures q in kept {
      NonZeroKeeps(Larger(b), q);
    }
    ThenSeconds(Larger(b), kept, b.seconds);
    kept + [Part(b.seconds, Seconds)]
  }

  /**
    The non-zero parts of a list ranked below seconds, with the seconds
    appended: the seconds come last, every other part is a non-zero member of
    the list, every non-zero member is there, and the order is kept.
  */
  lemma ThenSeconds(larger: seq<Part>, kept: seq<Part>, s: nat)
    requires forall i :: 0 <= i < |larger| ==> Rank(larger[i].unit) < Rank(Seconds)
    requires forall i :: 0 <= i < |kept| ==> kept[i].count > 0 && kept[i] in larger
    requires forall q :: q in larger && q.count > 0 ==> q in kept
    requires Ordered(kept)
    ensures var ps := kept + [Part(s, Seconds)];
      && |ps| >= 1 && ps[|ps| - 1] == Part(s, Seconds)
      && (forall i :: 0 <= i < |ps| - 1 ==> ps[i].count > 0 && ps[i].unit != Seconds && ps[i] in larger)
      && (forall q :: q in larger && q.count > 0 ==> q in ps)
      && Ordered(ps)
      && Value(ps) == Value(kept) + s
  {
    var ps := kept + [Part(s, Seconds)];
    forall i | 0 <= i < |kept| ensures Rank(kept[i].unit) < Rank(Seconds) {
      var j :| 0 <= j < |larger| && larger[j] == kept[i];
    }
    OrderedThenSeconds(kept, s);
    ValueAppend(kept, [Part(s, Seconds)]);
    forall i | 0 <= i < |ps| - 1 ensures ps[i] == kept[i] { }
  }

  /** `f"{count}{letter}"`: the digits of the count, then the unit letter. */
  function Word(p: Part): (w: string)
    ensures |w| >= 2 && w[|w| - 1] == Suffix(p.unit)
    ensures ' ' !in w
    ensures w[0] == '0' ==> |w| == 2
    ensures ReadWord(w) == Some(p)
  {
    var w := Show(p.count) + [Suffix(p.unit)];
    assert forall i :: 0 <= i < |w| - 1 ==> IsDigit(w[i]);
    assert w[..|w| - 1] == Show(p.count);
    ReadShow(p.count);
    w
  }

  function Words(ps: seq<Part>): (ws: seq<string>)
    ensures |ws| == |ps|
    ensures forall i :: 0 <= i < |ws| ==> ws[i] == Word(ps[i])
  {
    if ps == [] then [] else [Word(ps[0])] + Words(ps[1..])
  }

  /**
    `format_duration(seconds)` for `int(seconds) == total`: space-separated
    words that start with a digit, the last one always the seconds.
  */
  function FormatDuration(total: nat): (s: string)
    ensures s != [] && IsDigit(s[0]) && s[|s| - 1] == Suffix(Seconds)
  {
    JoinedShape(Parts(Decompose(total)));
    JoinWith(Words(Parts(Decompose(total))), ' ')
  }

  /** The words of a list of parts ending in the seconds, joined, start with a digit and end with `s`. */
  lemma JoinedShape(ps: seq<Part>)
    requires |ps| >= 1 && ps[|ps| - 1].unit == Seconds
    ensures var s := JoinWith(Words(ps), ' '); s != [] && IsDigit(s[0]) && s[|s| - 1] == Suffix(Seconds)
  {
    var ws := Words(ps);
    JoinEnds(ws, ' ');
    assert ws[0] == Show(ps[0].count) + [Suffix(ps[0].unit)];
  }

  /** Reads one `<count><unit>` word back into a part. */
  function ReadWord(w: string): Option<Part> {
    if |w| < 2 || !AllDigits(w[..|w| - 1]) then None
    else match UnitOf(w[|w| - 1])
      case None => None
      case Some(u) => Some(Part(Read(w[..|w| - 1]), u))
  }

  /** The seconds a list of words stands for, if every word reads. */
  function ReadWords(ws: seq<string>): Option<nat> {
    if ws == [] then Some(0)
    else match (ReadWord(ws[0]), ReadWords(ws[1..]))
      case (Some(p), Some(rest)) => Some(p.count * Weight(p.unit) + rest)
      case _ => None
  }

  /** Reads a rendered duration back into seconds. */
  function ReadDuration(s: string): (r: Option<nat>) {
    ReadWords(SplitOn(s, ' '))
  }

  lemma {:induction false} ReadWordsOfParts(ps: seq<Part>)
    ensures ReadWords(Words(ps)) == Some(Value(ps))
    decreases |ps|
  {
    if ps != [] {
      assert Words(ps) == [Word(ps[0])] + Words(ps[1..]);
      ReadWordsOfParts(ps[1..]);
      ReadWordsCons(Word(ps[0]), Words(ps[1..]), ps[0], Value(ps[1..]));
    }
  }

  /** A word that reads, in front of words that read, adds its part's seconds. */
  lemma ReadWordsCons(w: string, ws: seq<string>, p: Part, v: nat)
    requires ReadWord(w) == Some(p) && ReadWords(ws) == Some(v)
    ensures ReadWords([w] + ws) == Some(p.count * Weight(p.unit) + v)
  {
    assert ([w] + ws)[1..] == ws;
  }

  /** The rendering loses nothing: reading it back gives the number of seconds. */
  lemma RoundTrip(total: nat)
    ensures ReadDuration(FormatDuration(total)) == Some(total)
  {
    var ps := Parts(Decompose(total));
    var ws := Words(ps);
    SplitJoin(ws, ' ');
    ReadWordsOfParts(ps);
  }

  /** Different durations render differently. */
  lemma FormatInjective(a: nat, b: nat)
    requires FormatDuration(a) == FormatDuration(b)
    ensures a == b
  {
    RoundTrip(a);
    RoundTrip(b);
  }

  /** Zero seconds render as `0s`: the seconds part is written even when it is zero. */
  lemma ExampleZero()
    ensures FormatDuration(0) == "0s"
  {
    assert Decompose(0) == Breakdown(0, 0, 0, 0, 0);
  }

  /** One minute renders as `1m 0s`. */
  lemma ExampleMinute()
    ensures FormatDuration(60) == "1m 0s"
  {
    assert Decompose(60) == Breakdown(0, 0, 0, 1, 0);
  }

  /** One year and one second render as `1y 1s`: the zero days, hours and minutes are skipped. */
  lemma ExampleYear()
    ensures FormatDuration(SecondsPerYear + 1) == "1y 1s"
  {
    YearParts();
    YearWords();
    YearJoin();
  }

  /** The two words joined by one space. */
  lemma YearJoin()
    ensures JoinWith(["1y", "1s"], ' ') == "1y 1s"
  {
    assert ["1y", "1s"][1..] == ["1s"];
  }

  /** One year and one second keep only the year and the seconds. */
  lemma YearParts()
    ensures Parts(Decompose(SecondsPerYear + 1)) == [Part(1, Years), Part(1, Seconds)]
  {
    var b := Decompose(SecondsPerYear + 1);
    assert b == Breakdown(1, 0, 0, 0, 1);
    YearNonZero();
    assert Larger(b) == [Part(1, Years), Part(0, Days), Part(0, Hours), Part(0, Minutes)];
  }

  /** Of the year, day, hour and minute parts only the year is non-zero. */
  lemma YearNonZero()
    ensures NonZero([Part(1, Years), Part(0, Days), Part(0, Hours), Part(0, Minutes)]) == [Part(1, Years)]
  {
    var larger := [Part(1, Years), Part(0, Days), Part(0, Hours), Part(0, Minutes)];
    assert larger[1..][1..][1..][1..] == [];
    assert NonZero(larger[1..][1..][1..]) == [];
    assert NonZero(larger[1..][1..]) == [];
    assert NonZero(larger[1..]) == [];
  }

  /** Each part becomes its count and unit letter. */
  lemma YearWords()
    ensures Words([Part(1, Years), Part(1, Seconds)]) == ["1y", "1s"]
  {
    assert Word(Part(1, Years)) == "1y";
    assert Word(Part(1, Seconds)) == "1s";
  }
}

=== FILE: list_search.dfy ===
/**
  `generate_vanity_list`: one stream of candidate addresses searched for every
  prefix of a list at once. A prefix is claimed by the first address that hits
  it and is never reported again; one address may claim several prefixes, which
  are then reported in list order; a status line follows every attempt whose
  number is a multiple of the interval, the last attempt included; the loop
  runs while fewer distinct prefixes have been found than the list has entries.

  The key provider is replaced by the sequence of addresses it would produce:
  attempt `t` (counting from 1) sees `addresses[t - 1]`.
*/
module ListSearch {
  import opened Text
  import opened Matching

  datatype Event =
    /** The confirmation line and the wallet file written for a newly claimed prefix. */
    | Match(prefix: string, address: string, tries: nat)
    /** The `[STATUS]` line, with the number of prefixes found so far. */
    | Status(tries: nat, found: nat)

  /** The attempt number an event is reported with. */
  function EventTries(e: Event): nat {
    match e
    case Match(_, _, t) => t
    case Status(t, _) => t
  }

  datatype Outcome =
    /** The loop guard failed after `tries` attempts: the search finished. */
    | Done(tries: nat)
    /** `tries % status_interval` raised at attempt `tries` because the interval is 0. */
    | ZeroDivision(tries: nat)
    /** All `tries` supplied addresses were used and the loop still wanted another. */
    | StreamEnd(tries: nat)

  datatype Run = Run(events: seq<Event>, outcome: Outcome)

  /** What the inner `for` loop leaves behind: the prefixes it claimed, in order, and the new `found`. */
  datatype Claim = Claim(claimed: seq<string>, found: set<string>)

  /**
    The inner loop from list position `j` on: a prefix not yet in `found`
    whose target starts `address` is claimed and added to `found` at once, so
    a later copy of it in the list is skipped.
  */
  function ClaimFrom(prefixes: seq<string>, j: nat, found: set<string>, address: string): (c: Claim)
    requires j <= |prefixes|
    ensures forall p :: p in c.claimed <==> p in prefixes[j..] && p !in found && Hits(p, address)
    ensures forall e :: 0 <= e < |c.claimed| ==> c.claimed[e] in prefixes
    decreases |prefixes| - j
  {
    if j == |prefixes| then Claim([], found)
    else
      assert prefixes[j..] == [prefixes[j]] + prefixes[j + 1..];
      var p := prefixes[j];
      if p !in found && Hits(p, address) then
        var rest := ClaimFrom(prefixes, j + 1, found + {p}, address);
        Claim([p] + rest.claimed, rest.found)
      else
        ClaimFrom(prefixes, j + 1, found, address)
  }

  /** The inner loop adds to `found` exactly the prefixes from position `j` on whose target starts `address`. */
  lemma {:induction false} ClaimFound(prefixes: seq<string>, j: nat, found: set<string>, address: string)
    requires j <= |prefixes|
    ensures ClaimFrom(prefixes, j, found, address).found == found + (set p | p in prefixes[j..] && Hits(p, address))
    decreases |prefixes| - j
  {
    if j < |prefixes| {
      var p := prefixes[j];
      assert prefixes[j..] == [p] + prefixes[j + 1..];
      if p !in found && Hits(p, address) {
        ClaimFound(prefixes, j + 1, found + {p}, address);
      } else {
        ClaimFound(prefixes, j + 1, found, address);
      }
    }
  }

  /** One `Match` event per claimed prefix, all for the same address and attempt. */
  function Announce(claimed: seq<string>, address: string, tries: nat): (es: seq<Event>)
    ensures |es| == |claimed|
    ensures forall i :: 0 <= i < |es| ==> es[i] == Match(claimed[i], address, tries)
  {
    if claimed == [] then [] else [Match(claimed[0], address, tries)] + Announce(claimed[1..], address, tries)
  }

  /**
    The `while` loop entered with `k` attempts made and `found` claimed:
    test the guard, take the next address, claim, then check the status
    interval, even when this attempt completed the search.
  */
  function Loop(prefixes: seq<string>, interval: int, addresses: seq<string>, k: nat, found: set<string>): (r: Run)
    requires k <= |addresses|
    ensures k <= r.outcome.tries <= |addresses|
    ensures r.outcome.ZeroDivision? ==> interval == 0 && r.outcome.tries == k + 1
    decreases |addresses| - k
  {
    if |found| >= |prefixes| then Run([], Done(k))
    else if k == |addresses| then Run([], StreamEnd(k))
    else
      var tries := k + 1;
      var address := addresses[k];
      var c := ClaimFrom(prefixes, 0, found, address);
      var matches := Announce(c.claimed, address, tries);
      if interval == 0 then Run(matches, ZeroDivision(tries))
      else
        var status := if StatusDue(tries, interval) then [Status(tries, |c.found|)] else [];
        var rest := Loop(prefixes, interval, addresses, tries, c.found);
        Run(matches + status + rest.events, rest.outcome)
  }

  /**
    `generate_vanity_list(prefixes, interval)` over the given address stream:
    it never asks for more addresses than there are, a division by zero can
    only happen on the first attempt, running out of addresses means all of
    them were used, and an empty list is done before the first attempt.
  */
  function SearchList(prefixes: seq<string>, interval: int, addresses: seq<string>): (r: Run)
    ensures r.outcome.tries <= |addresses|
    ensures r.outcome.ZeroDivision? ==> interval == 0 && r.outcome.tries == 1
    ensures r.outcome.StreamEnd? ==> r.outcome.tries == |addresses|
    ensures prefixes == [] ==> r == Run([], Done(0))
  {
    LoopStreamEnd(prefixes, interval, addresses, 0, {});
    Loop(prefixes, interval, addresses, 0, {})
  }

  /** The loop runs out of addresses only once it has used all of them. */
  lemma {:induction false} LoopStreamEnd(prefixes: seq<string>, interval: int, addresses: seq<string>, k: nat, found: set<string>)
    requires k <= |addresses|
    ensures var o := Loop(prefixes, interval, addresses, k, found).outcome; o.StreamEnd? ==> o.tries == |addresses|
    decreases |addresses| - k
  {
    if |found| < |prefixes| && k < |addresses| && interval != 0 {
      LoopStreamEnd(prefixes, interval, addresses, k + 1, ClaimFrom(prefixes, 0, found, addresses[k]).found);
    }
  }

  // ---------------------------------------------------------------------------
  // The reference view: what the loop state means in terms of the stream.

  /** The prefixes of the list hit by one of the first `k` addresses. */
  function FoundBy(prefixes: seq<string>, addresses: seq<string>, k: nat): set<string>
    requires k <= |addresses|
  {
    set p | p in prefixes && HitBefore(p, addresses, k)
  }

  /** The loop guard has failed: as many distinct prefixes found as the list has entries. */
  predicate AllFound(prefixes: seq<string>, addresses: seq<string>, k: nat)
    requires k <= |addresses|
  {
    |FoundBy(prefixes, addresses, k)| >= |prefixes|
  }

  lemma FoundByNone(prefixes: seq<string>, addresses: seq<string>)
    ensures FoundBy(prefixes, addresses, 0) == {}
  {
  }

  /** The claims of attempt `k + 1` turn `FoundBy(k)` into `FoundBy(k + 1)`. */
  lemma FoundByStep(prefixes: seq<string>, addresses: seq<string>, k: nat)
    requires k < |addresses|
    ensures ClaimFrom(prefixes, 0, FoundBy(prefixes, addresses, k), addresses[k]).found
            == FoundBy(prefixes, addresses, k + 1)
  {
    assert prefixes[0..] == prefixes;
    ClaimFound(prefixes, 0, FoundBy(prefixes, addresses, k), addresses[k]);
    var before := FoundBy(prefixes, addresses, k);
    var after := FoundBy(prefixes, addresses, k + 1);
    forall p | p in after ensures p in before || Hits(p, addresses[k]) {
      var j :| 0 <= j < k + 1 && Hits(p, addresses[j]);
      if j < k {
        assert HitBefore(p, addresses, k);
      }
    }
  }

  /** The `Match` events of attempt `k + 1` are the prefixes whose first hit is `addresses[k]`. */
  lemma AttemptMatches(prefixes: seq<string>, addresses: seq<string>, k: nat)
    requires k < |addresses|
    ensures var c := ClaimFrom(prefixes, 0, FoundBy(prefixes, addresses, k), addresses[k]);
      forall p, a, t: nat :: Match(p, a, t) in Announce(c.claimed, addresses[k], k + 1) <==>
        p in prefixes && t == k + 1 && a == addresses[k] && FirstHit(p, addresses, k)
  {
    var found := FoundBy(prefixes, addresses, k);
    var c := ClaimFrom(prefixes, 0, found, addresses[k]);
    assert prefixes[0..] == prefixes;
    var matches := Announce(c.claimed, addresses[k], k + 1);
    forall p, a, t: nat
      ensures Match(p, a, t) in matches <==>
        p in prefixes && t == k + 1 && a == addresses[k] && FirstHit(p, addresses, k)
    {
      if Match(p, a, t) in matches {
        var i :| 0 <= i < |matches| && matches[i] == Match(p, a, t);
        assert p == c.claimed[i];
      }
      if p in prefixes && t == k + 1 && a == addresses[k] && FirstHit(p, addresses, k) {
        assert !HitBefore(p, addresses, k);
        assert p in c.claimed;
        var i :| 0 <= i < |c.claimed| && c.claimed[i] == p;
        assert matches[i] == Match(p, a, t);
      }
    }
  }

  /** Matches are exactly the first hits of the list's prefixes, each at the attempt that made it. */
  lemma {:induction false} LoopMatches(prefixes: seq<string>, interval: int, addresses: seq<string>, k: nat)
    requires k <= |addresses|
    ensures var r := Loop(prefixes, interval, addresses, k, FoundBy(prefixes, addresses, k));
      forall p, a, t: nat :: Match(p, a, t) in r.events <==>
        p in prefixes && k < t <= r.outcome.tries && a == addresses[t - 1] && FirstHit(p, addresses, t - 1)
    decreases |addresses| - k
  {
    var found := FoundBy(prefixes, addresses, k);
    if |found| < |prefixes| && k < |addresses| {
      AttemptMatches(prefixes, addresses, k);
      if interval != 0 {
        var r := Loop(prefixes, interval, addresses, k, found);
        var c := ClaimFrom(prefixes, 0, found, addresses[k]);
        var matches := Announce(c.claimed, addresses[k], k + 1);
        var status := if StatusDue(k + 1, interval) then [Status(k + 1, |c.found|)] else [];
        FoundByStep(prefixes, addresses, k);
        var rest := Loop(prefixes, interval, addresses, k + 1, c.found);
        assert r.events == matches + status + rest.events && r.outcome == rest.outcome;
        LoopMatches(prefixes, interval, addresses, k + 1);
        forall p, a, t: nat
          ensures Match(p, a, t) in r.events <==> Match(p, a, t) in matches || Match(p, a, t) in rest.events
        {
          assert Match(p, a, t) !in status;
        }
      }
    }
  }

  /** One turn of the loop from `FoundBy(k)`: this attempt's matches, its status line if due, then the rest. */
  lemma LoopUnfold(prefixes: seq<string>, interval: int, addresses: seq<string>, k: nat)
    requires k < |addresses| && interval != 0
    requires !AllFound(prefixes, addresses, k)
    ensures var r := Loop(prefixes, interval, addresses, k, FoundBy(prefixes, addresses, k));
      var rest := Loop(prefixes, interval, addresses, k + 1, FoundBy(prefixes, addresses, k + 1));
      var c := ClaimFrom(prefixes, 0, FoundBy(prefixes, addresses, k), addresses[k]);
      && r.outcome == rest.outcome
      && r.events == Announce(c.claimed, addresses[k], k + 1)
                     + (if StatusDue(k + 1, interval) then [Status(k + 1, |FoundBy(prefixes, addresses, k + 1)|)] else [])
                     + rest.events
  {
    FoundByStep(prefixes, addresses, k);
  }

  /** The status line of attempt `t` if it is due, with the number of prefixes found by then. */
  predicate StatusLine(prefixes: seq<string>, interval: int, addresses: seq<string>, t: nat, n: nat)
    requires interval != 0 && t <= |addresses|
  {
    StatusDue(t, interval) && n == |FoundBy(prefixes, addresses, t)|
  }

  /** Status lines: one after every attempt whose number the interval divides, carrying `len(found)` at that point. */
  lemma {:induction false} LoopStatus(prefixes: seq<string>, interval: int, addresses: seq<string>, k: nat)
    requires k <= |addresses|
    ensures var r := Loop(prefixes, interval, addresses, k, FoundBy(prefixes, addresses, k));
      forall t: nat, n: nat :: Status(t, n) in r.events <==>
        interval != 0 && k < t <= r.outcome.tries && StatusLine(prefixes, interval, addresses, t, n)
    decreases |addresses| - k
  {
    var found := FoundBy(prefixes, addresses, k);
    var r := Loop(prefixes, interval, addresses, k, found);
    if |found| < |prefixes| && k < |addresses| {
      var c := ClaimFrom(prefixes, 0, found, addresses[k]);
      var matches := Announce(c.claimed, addresses[k], k + 1);
      if interval == 0 {
        assert r.events == matches;
      } else {
        LoopUnfold(prefixes, interval, addresses, k);
        LoopStatus(prefixes, interval, addresses, k + 1);
        var rest := Loop(prefixes, interval, addresses, k + 1, FoundBy(prefixes, addresses, k + 1));
        var status := if StatusDue(k + 1, interval) then [Status(k + 1, |FoundBy(prefixes, addresses, k + 1)|)] else [];
        StatusCombine(matches, status, rest.events, k, rest.outcome.tries,
                      (t: nat, n: nat) => t <= |addresses| && StatusLine(prefixes, interval, addresses, t, n));
      }
    }
  }

  /** Membership of a status line in one turn's events followed by the rest of the trace. */
  lemma StatusCombine(matches: seq<Event>, status: seq<Event>, rest: seq<Event>, k: nat, last: nat,
                      line: (nat, nat) -> bool)
    requires forall i :: 0 <= i < |matches| ==> matches[i].Match?
    requires forall t: nat, n: nat :: Status(t, n) in status <==> t == k + 1 && line(t, n)
    requires forall t: nat, n: nat :: Status(t, n) in rest <==> k + 1 < t <= last && line(t, n)
    requires k + 1 <= last
    ensures forall t: nat, n: nat :: Status(t, n) in matches + status + rest <==> k < t <= last && line(t, n)
  {
    forall t: nat, n: nat
      ensures Status(t, n) in matches + status + rest <==> k < t <= last && line(t, n)
    {
      assert Status(t, n) !in matches;
    }
  }

  /** No attempt count from `lo` up to, but not including, `hi` satisfies the guard's exit condition. */
  predicate Pending(prefixes: seq<string>, addresses: seq<string>, lo: nat, hi: nat)
    requires hi <= |addresses|
  {
    forall t :: lo <= t < hi ==> !AllFound(prefixes, addresses, t)
  }

  /**
    Where the loop stops: `Done(t)` at the first attempt count `t` after which
    the guard fails; `StreamEnd` only if the guard never fails on the stream;
    `ZeroDivision` on the first attempt made, if the interval is 0.
  */
  lemma {:induction false} LoopOutcome(prefixes: seq<string>, interval: int, addresses: seq<string>, k: nat)
    requires k <= |addresses|
    ensures var r := Loop(prefixes, interval, addresses, k, FoundBy(prefixes, addresses, k));
      && (r.outcome.Done? ==>
            AllFound(prefixes, addresses, r.outcome.tries) && Pending(prefixes, addresses, k, r.outcome.tries))
      && (r.outcome.StreamEnd? ==>
            r.outcome.tries == |addresses| && Pending(prefixes, addresses, k, |addresses|)
            && !AllFound(prefixes, addresses, |addresses|))
      && (r.outcome.ZeroDivision? ==> k < |addresses| && !AllFound(prefixes, addresses, k))
      && (interval == 0 ==> r.outcome.tries == k || r.outcome.ZeroDivision?)
    decreases |addresses| - k
  {
    if !AllFound(prefixes, addresses, k) && k < |addresses| && interval != 0 {
      LoopUnfold(prefixes, interval, addresses, k);
      LoopOutcome(prefixes, interval, addresses, k + 1);
    }
  }

  /** The first position of `p` in the list. */
  function Pos(prefixes: seq<string>, p: string): (i: nat)
    requires p in prefixes
    ensures i < |prefixes| && prefixes[i] == p
    ensures forall j :: 0 <= j < i ==> prefixes[j] != p
  {
    if prefixes[0] == p then 0 else 1 + Pos(prefixes[1..], p)
  }

  /** Every prefix claimed from list position `j` on has its first copy at or after `j`. */
  lemma ClaimFromPos(prefixes: seq<string>, j: nat, found: set<string>, address: string)
    requires j <= |prefixes|
    requires forall i :: 0 <= i < j && Hits(prefixes[i], address) ==> prefixes[i] in found
    ensures forall p :: p in ClaimFrom(prefixes, j, found, address).claimed ==> p in prefixes && j <= Pos(prefixes, p)
  {
    var c := ClaimFrom(prefixes, j, found, address);
    forall p | p in c.claimed ensures p in prefixes && j <= Pos(prefixes, p) {
      assert p in prefixes[j..] && p !in found && Hits(p, address);
      var i := Pos(prefixes, p);
      assert prefixes[i] == p;
    }
  }

  /** Entries of the list, in strictly increasing order of their first position in it. */
  predicate InPosOrder(prefixes: seq<string>, claimed: seq<string>) {
    && (forall e :: 0 <= e < |claimed| ==> claimed[e] in prefixes)
    && (forall e1, e2 :: 0 <= e1 < e2 < |claimed| ==> Pos(prefixes, claimed[e1]) < Pos(prefixes, claimed[e2]))
  }

  /** An entry whose first position is `j`, in front of entries in order whose first positions lie after `j`. */
  lemma InPosOrderCons(prefixes: seq<string>, p: string, rest: seq<string>, j: nat)
    requires p in prefixes && Pos(prefixes, p) == j
    requires InPosOrder(prefixes, rest)
    requires forall q :: q in rest ==> q in prefixes && j <= Pos(prefixes, q) - 1
    ensures InPosOrder(prefixes, [p] + rest)
  {
    var c := [p] + rest;
    forall e1, e2 | 0 <= e1 < e2 < |c|
      ensures Pos(prefixes, c[e1]) < Pos(prefixes, c[e2])
    {
      assert c[e2] == rest[e2 - 1] && c[e2] in rest;
      if e1 > 0 {
        assert c[e1] == rest[e1 - 1];
      }
    }
  }

  /**
    Prefixes claimed by one address come out in the order of their first
    position in the list, so each of them once: a repeated entry is skipped
    because its first copy already put it in `found`.
  */
  lemma {:induction false} ClaimOrdered(prefixes: seq<string>, j: nat, found: set<string>, address: string)
    requires j <= |prefixes|
    requires forall i :: 0 <= i < j && Hits(prefixes[i], address) ==> prefixes[i] in found
    ensures InPosOrder(prefixes, ClaimFrom(prefixes, j, found, address).claimed)
    decreases |prefixes| - j
  {
    if j < |prefixes| {
      var p := prefixes[j];
      if p !in found && Hits(p, address) {
        var found' := found + {p};
        ClaimOrdered(prefixes, j + 1, found', address);
        ClaimFromPos(prefixes, j + 1, found', address);
        assert Pos(prefixes, p) == j;
        InPosOrderCons(prefixes, p, ClaimFrom(prefixes, j + 1, found', address).claimed, j);
      } else {
        ClaimOrdered(prefixes, j + 1, found, address);
      }
    }
  }

  /** Attempt numbers never decrease along the trace, and a status line is the last event of its attempt. */
  predicate InAttemptOrder(es: seq<Event>) {
    forall i, j :: 0 <= i < j < |es| ==>
      && EventTries(es[i]) <= EventTries(es[j])
      && (es[i].Status? ==> EventTries(es[i]) < EventTries(es[j]))
  }

  /** The matches of one attempt follow the list order of their prefixes. */
  predicate InListOrder(prefixes: seq<string>, es: seq<Event>) {
    forall i, j :: 0 <= i < j < |es| && es[i].Match? && es[j].Match? ==>
      EventTries(es[i]) == EventTries(es[j]) ==>
        es[i].prefix in prefixes && es[j].prefix in prefixes
        && Pos(prefixes, es[i].prefix) < Pos(prefixes, es[j].prefix)
  }

  /** Every event lies between attempt `k + 1` and the last attempt made. */
  predicate Within(es: seq<Event>, k: nat, last: nat) {
    forall i :: 0 <= i < |es| ==> k < EventTries(es[i]) <= last
  }

  /** Matches and a status line of attempt `k + 1`, followed by later events, stay in attempt order. */
  lemma AttemptOrderCombine(matches: seq<Event>, status: seq<Event>, rest: seq<Event>, k: nat, last: nat)
    requires forall i :: 0 <= i < |matches| ==> matches[i].Match? && EventTries(matches[i]) == k + 1
    requires |status| <= 1 && forall i :: 0 <= i < |status| ==> status[i].Status? && EventTries(status[i]) == k + 1
    requires Within(rest, k + 1, last) && InAttemptOrder(rest)
    requires k + 1 <= last
    ensures Within(matches + status + rest, k, last)
    ensures InAttemptOrder(matches + status + rest)
  {
    var head := matches + status;
    var es := head + rest;
    assert matches + status + rest == es;
    forall i, j | 0 <= i < j < |es|
      ensures EventTries(es[i]) <= EventTries(es[j])
      ensures es[i].Status? ==> EventTries(es[i]) < EventTries(es[j])
    {
      if j < |head| {
        assert es[i] == head[i] && es[j] == head[j];
        assert i < |matches|;
      } else if i < |head| {
        assert es[i] == head[i] && es[j] == rest[j - |head|];
      } else {
        assert es[i] == rest[i - |head|] && es[j] == rest[j - |head|];
      }
    }
    forall i | 0 <= i < |es| ensures k < EventTries(es[i]) <= last {
      if i < |head| {
        assert es[i] == head[i];
      } else {
        assert es[i] == rest[i - |head|];
      }
    }
  }

  /** Matches of attempt `k + 1` in list order, a status line, then later events: list order holds throughout. */
  lemma ListOrderCombine(prefixes: seq<string>, matches: seq<Event>, status: seq<Event>, rest: seq<Event>, k: nat)
    requires forall i :: 0 <= i < |matches| ==> matches[i].Match? && EventTries(matches[i]) == k + 1
    requires InListOrder(prefixes, matches)
    requires forall i :: 0 <= i < |status| ==> status[i].Status?
    requires (forall i :: 0 <= i < |rest| ==> k + 1 < EventTries(rest[i])) && InListOrder(prefixes, rest)
    ensures InListOrder(prefixes, matches + status + rest)
  {
    var head := matches + status;
    var es := head + rest;
    assert matches + status + rest == es;
    forall i, j | 0 <= i < j < |es|
      ensures es[i].Match? && es[j].Match? && EventTries(es[i]) == EventTries(es[j]) ==>
        es[i].prefix in prefixes && es[j].prefix in prefixes
        && Pos(prefixes, es[i].prefix) < Pos(prefixes, es[j].prefix)
    {
      if j < |matches| {
        assert es[i] == matches[i] && es[j] == matches[j];
      } else if j < |head| {
        assert es[j] == status[j - |matches|];
      } else if i < |head| {
        assert es[i] == head[i] && es[j] == rest[j - |head|];
      } else {
        assert es[i] == rest[i - |head|] && es[j] == rest[j - |head|];
      }
    }
  }

  lemma OrderCombine(prefixes: seq<string>, matches: seq<Event>, status: seq<Event>, rest: seq<Event>, k: nat, last: nat)
    requires forall i :: 0 <= i < |matches| ==> matches[i].Match? && EventTries(matches[i]) == k + 1
    requires InListOrder(prefixes, matches)
    requires |status| <= 1 && forall i :: 0 <= i < |status| ==> status[i].Status? && EventTries(status[i]) == k + 1
    requires Within(rest, k + 1, last) && InAttemptOrder(rest) && InListOrder(prefixes, rest)
    requires k + 1 <= last
    ensures Within(matches + status + rest, k, last)
    ensures InAttemptOrder(matches + status + rest)
    ensures InListOrder(prefixes, matches + status + rest)
  {
    AttemptOrderCombine(matches, status, rest, k, last);
    ListOrderCombine(prefixes, matches, status, rest, k);
  }

  /** The matches announced for one claim are `Match` events of that attempt, in list order. */
  lemma AnnounceInListOrder(prefixes: seq<string>, found: set<string>, address: string, tries: nat)
    ensures var es := Announce(ClaimFrom(prefixes, 0, found, address).claimed, address, tries);
      && (forall i :: 0 <= i < |es| ==> es[i].Match? && EventTries(es[i]) == tries)
      && InListOrder(prefixes, es)
  {
    var c := ClaimFrom(prefixes, 0, found, address);
    ClaimOrdered(prefixes, 0, found, address);
    var es := Announce(c.claimed, address, tries);
    forall i, j | 0 <= i < j < |es| && es[i].Match? && es[j].Match?
      ensures es[i].prefix in prefixes && es[j].prefix in prefixes
      ensures Pos(prefixes, es[i].prefix) < Pos(prefixes, es[j].prefix)
    {
      assert es[i].prefix == c.claimed[i] && es[j].prefix == c.claimed[j];
    }
  }

  /** The trace of a run from `k` attempts on is ordered by attempt, and by list position within one. */
  predicate Ordered(prefixes: seq<string>, r: Run, k: nat) {
    Within(r.events, k, r.outcome.tries) && InAttemptOrder(r.events) && InListOrder(prefixes, r.events)
  }

  /** One turn of the loop keeps the trace ordered. */
  lemma LoopOrderStep(prefixes: seq<string>, interval: int, addresses: seq<string>, k: nat)
    requires k < |addresses| && interval != 0 && !AllFound(prefixes, addresses, k)
    requires Ordered(prefixes, Loop(prefixes, interval, addresses, k + 1, FoundBy(prefixes, addresses, k + 1)), k + 1)
    ensures Ordered(prefixes, Loop(prefixes, interval, addresses, k, FoundBy(prefixes, addresses, k)), k)
  {
    LoopUnfold(prefixes, interval, addresses, k);
    var found := FoundBy(prefixes, addresses, k);
    AnnounceInListOrder(prefixes, found, addresses[k], k + 1);
    var matches := Announce(ClaimFrom(prefixes, 0, found, addresses[k]).claimed, addresses[k], k + 1);
    var rest := Loop(prefixes, interval, addresses, k + 1, FoundBy(prefixes, addresses, k + 1));
    var status := if StatusDue(k + 1, interval) then [Status(k + 1, |FoundBy(prefixes, addresses, k + 1)|)] else [];
    OrderCombine(prefixes, matches, status, rest.events, k, rest.outcome.tries);
  }

  /** With a zero interval, the matches of the one attempt made are in order. */
  lemma LoopOrderZero(prefixes: seq<string>, addresses: seq<string>, k: nat)
    requires k < |addresses| && !AllFound(prefixes, addresses, k)
    ensures Ordered(prefixes, Loop(prefixes, 0, addresses, k, FoundBy(prefixes, addresses, k)), k)
  {
    var found := FoundBy(prefixes, addresses, k);
    AnnounceInListOrder(prefixes, found, addresses[k], k + 1);
    var matches := Announce(ClaimFrom(prefixes, 0, found, addresses[k]).claimed, addresses[k], k + 1);
    assert Loop(prefixes, 0, addresses, k, found) == Run(matches, ZeroDivision(k + 1));
    OrderCombine(prefixes, matches, [], [], k, k + 1);
    assert matches + [] + [] == matches;
  }

  /**
    The trace is ordered by attempt: attempt numbers never decrease, a status
    line is the last event of its attempt, and the matches of one attempt
    follow the list order of their prefixes.
  */
  lemma {:induction false} LoopOrder(prefixes: seq<string>, interval: int, addresses: seq<string>, k: nat)
    requires k <= |addresses|
    ensures Ordered(prefixes, Loop(prefixes, interval, addresses, k, FoundBy(prefixes, addresses, k)), k)
    decreases |addresses| - k
  {
    if !AllFound(prefixes, addresses, k) && k < |addresses| {
      if interval == 0 {
        LoopOrderZero(prefixes, addresses, k);
      } else {
        LoopOrder(prefixes, interval, addresses, k + 1);
        LoopOrderStep(prefixes, interval, addresses, k);
      }
    }
  }

  // ---------------------------------------------------------------------------
  // The search from its start.

  /** Each match reports a prefix of the list at the first address that hits it, once. */
  lemma SearchMatches(prefixes: seq<string>, interval: int, addresses: seq<string>)
    ensures var r := SearchList(prefixes, interval, addresses);
      forall p, a, t: nat :: Match(p, a, t) in r.events <==>
        p in prefixes && 0 < t <= r.outcome.tries && a == addresses[t - 1] && FirstHit(p, addresses, t - 1)
  {
    FoundByNone(prefixes, addresses);
    LoopMatches(prefixes, interval, addresses, 0);
  }

  /** A status line follows exactly the attempts the interval divides, with the count found by then. */
  lemma SearchStatus(prefixes: seq<string>, interval: int, addresses: seq<string>)
    ensures var r := SearchList(prefixes, interval, addresses);
      forall t: nat, n: nat :: Status(t, n) in r.events <==>
        interval != 0 && 0 < t <= r.outcome.tries && StatusLine(prefixes, interval, addresses, t, n)
  {
    FoundByNone(prefixes, addresses);
    LoopStatus(prefixes, interval, addresses, 0);
  }

  /** The trace is ordered by attempt, and by list position among the matches of one attempt. */
  lemma SearchOrder(prefixes: seq<string>, interval: int, addresses: seq<string>)
    ensures Ordered(prefixes, SearchList(prefixes, interval, addresses), 0)
  {
    FoundByNone(prefixes, addresses);
    LoopOrder(prefixes, interval, addresses, 0);
  }

  /**
    The search stops at the first attempt count after which the guard fails,
    and nowhere else; with a zero interval and something to search for, the
    first attempt raises.
  */
  lemma SearchOutcome(prefixes: seq<string>, interval: int, addresses: seq<string>)
    ensures var r := SearchList(prefixes, interval, addresses);
      && (r.outcome.Done? ==>
            AllFound(prefixes, addresses, r.outcome.tries) && Pending(prefixes, addresses, 0, r.outcome.tries))
      && (r.outcome.StreamEnd? ==>
            r.outcome.tries == |addresses| && Pending(prefixes, addresses, 0, |addresses|)
            && !AllFound(prefixes, addresses, |addresses|))
      && (r.outcome.ZeroDivision? ==> r.outcome.tries == 1 && interval == 0)
      && (interval == 0 && prefixes != [] && addresses != [] ==> r.outcome == ZeroDivision(1))
      && (prefixes == [] ==> r == Run([], Done(0)))
  {
    FoundByNone(prefixes, addresses);
    LoopOutcome(prefixes, interval, addresses, 0);
  }

  /** No prefix is reported twice, even when the list repeats it. */
  lemma SearchClaimsOnce(prefixes: seq<string>, interval: int, addresses: seq<string>)
    ensures var es := SearchList(prefixes, interval, addresses).events;
      forall i, j :: 0 <= i < j < |es| && es[i].Match? && es[j].Match? ==> es[i].prefix != es[j].prefix
  {
    SearchMatches(prefixes, interval, addresses);
    SearchOrder(prefixes, interval, addresses);
    var es := SearchList(prefixes, interval, addresses).events;
    forall i, j | 0 <= i < j < |es| && es[i].Match? && es[j].Match?
      ensures es[i].prefix != es[j].prefix
    {
      var x, y := es[i], es[j];
      assert x == Match(x.prefix, x.address, x.tries) && x in es;
      assert y == Match(y.prefix, y.address, y.tries) && y in es;
      MatchesDiffer(prefixes, addresses, es, i, j);
    }
  }

  /** Two matches of an ordered trace, each at the first hit of its prefix, name different prefixes. */
  lemma MatchesDiffer(prefixes: seq<string>, addresses: seq<string>, es: seq<Event>, i: nat, j: nat)
    requires i < j < |es| && es[i].Match? && es[j].Match? && InListOrder(prefixes, es)
    requires 0 < es[i].tries && FirstHit(es[i].prefix, addresses, es[i].tries - 1)
    requires 0 < es[j].tries && FirstHit(es[j].prefix, addresses, es[j].tries - 1)
    ensures es[i].prefix != es[j].prefix
  {
    if es[i].tries != es[j].tries {
      FirstHitsDiffer(es[i].prefix, es[j].prefix, addresses, es[i].tries - 1, es[j].tries - 1);
    }
  }

  /** Prefixes first hit at different positions are different prefixes. */
  lemma FirstHitsDiffer(p: string, q: string, addresses: seq<string>, i: nat, j: nat)
    requires FirstHit(p, addresses, i) && FirstHit(q, addresses, j) && i != j
    ensures p != q
  {
    if i < j {
      assert Hits(p, addresses[i]) && !Hits(q, addresses[i]);
    } else {
      assert Hits(q, addresses[j]) && !Hits(p, addresses[j]);
    }
  }

  /** The entries of a list, as a set. */
  function Elements(prefixes: seq<string>): set<string> {
    set p | p in prefixes
  }

  /** No entry of the list appears twice. */
  predicate Distinct(prefixes: seq<string>) {
    forall i, j :: 0 <= i < j < |prefixes| ==> prefixes[i] != prefixes[j]
  }

  /** A list has as many distinct entries as entries exactly when no entry repeats. */
  lemma {:induction false} ElementsCard(prefixes: seq<string>)
    ensures |Elements(prefixes)| <= |prefixes|
    ensures Distinct(prefixes) <==> |Elements(prefixes)| == |prefixes|
    decreases |prefixes|
  {
    if prefixes != [] {
      var x, rest := prefixes[0], prefixes[1..];
      ElementsCard(rest);
      assert prefixes == [x] + rest;
      assert Elements(prefixes) == {x} + Elements(rest);
      if x in rest {
        var j :| 0 <= j < |rest| && rest[j] == x;
        assert prefixes[0] == prefixes[j + 1];
      } else {
        assert Distinct(prefixes) <==> Distinct(rest);
      }
    }
  }

  lemma SubsetCard(a: set<string>, b: set<string>)
    requires a <= b
    ensures |a| <= |b|
    ensures |a| == |b| ==> a == b
  {
    assert b == a + (b - a);
    assert a * (b - a) == {};
  }

  /**
    With a repeated prefix the guard `len(found) < len(prefixes)` never fails,
    since `found` holds each prefix once: the search runs until the stream ends.
  */
  lemma DuplicatesNeverDone(prefixes: seq<string>, interval: int, addresses: seq<string>)
    requires !Distinct(prefixes)
    ensures !SearchList(prefixes, interval, addresses).outcome.Done?
  {
    SearchOutcome(prefixes, interval, addresses);
    ElementsCard(prefixes);
    forall t | 0 <= t <= |addresses| ensures !AllFound(prefixes, addresses, t) {
      SubsetCard(FoundBy(prefixes, addresses, t), Elements(prefixes));
    }
  }

  /** Every prefix of the list is hit by one of the first `t` addresses. */
  predicate AllHitBy(prefixes: seq<string>, addresses: seq<string>, t: nat)
    requires t <= |addresses|
  {
    forall p :: p in prefixes ==> HitBefore(p, addresses, t)
  }

  /** With distinct prefixes the guard fails exactly when every prefix has been hit. */
  lemma DistinctAllFound(prefixes: seq<string>, addresses: seq<string>, k: nat)
    requires Distinct(prefixes) && k <= |addresses|
    ensures AllFound(prefixes, addresses, k) <==> AllHitBy(prefixes, addresses, k)
  {
    ElementsCard(prefixes);
    SubsetCard(FoundBy(prefixes, addresses, k), Elements(prefixes));
    if AllHitBy(prefixes, addresses, k) {
      assert FoundBy(prefixes, addresses, k) == Elements(prefixes);
    }
    if AllFound(prefixes, addresses, k) {
      forall p | p in prefixes ensures HitBefore(p, addresses, k) {
        assert p in Elements(prefixes);
      }
    }
  }

  /** With distinct prefixes, the attempt that completes the list is the first hit of one of them. */
  lemma LastClaim(prefixes: seq<string>, addresses: seq<string>, t: nat)
    requires Distinct(prefixes) && 0 < t <= |addresses|
    requires AllFound(prefixes, addresses, t) && !AllFound(prefixes, addresses, t - 1)
    ensures exists p :: p in prefixes && FirstHit(p, addresses, t - 1)
  {
    DistinctAllFound(prefixes, addresses, t);
    DistinctAllFound(prefixes, addresses, t - 1);
    var p :| p in prefixes && !HitBefore(p, addresses, t - 1);
    assert FirstHit(p, addresses, t - 1);
  }

  /**
    With distinct prefixes, a finished search has hit every prefix, and its
    last attempt is the one that claimed the last of them.
  */
  lemma DistinctDone(prefixes: seq<string>, interval: int, addresses: seq<string>)
    requires Distinct(prefixes) && prefixes != []
    ensures var r := SearchList(prefixes, interval, addresses);
      r.outcome.Done? ==>
        && AllHitBy(prefixes, addresses, r.outcome.tries)
        && exists p :: p in prefixes && Match(p, addresses[r.outcome.tries - 1], r.outcome.tries) in r.events
  {
    var r := SearchList(prefixes, interval, addresses);
    SearchOutcome(prefixes, interval, addresses);
    if r.outcome.Done? {
      var t := r.outcome.tries;
      DistinctAllFound(prefixes, addresses, t);
      FoundByNone(prefixes, addresses);
      assert t != 0;
      LastClaim(prefixes, addresses, t);
      var p :| p in prefixes && FirstHit(p, addresses, t - 1);
      SearchMatches(prefixes, interval, addresses);
      assert Match(p, addresses[t - 1], t) in r.events;
    }
  }

  /**
    With distinct prefixes and a non-zero interval, a stream in which every
    prefix is hit somewhere makes the search finish, at the first attempt
    by which all of them have been hit.
  */
  lemma DistinctFinishes(prefixes: seq<string>, interval: int, addresses: seq<string>)
    requires Distinct(prefixes) && interval != 0
    requires AllHitBy(prefixes, addresses, |addresses|)
    ensures var o := SearchList(prefixes, interval, addresses).outcome;
      && o.Done?
      && AllHitBy(prefixes, addresses, o.tries)
      && forall t :: 0 <= t < o.tries ==> !AllHitBy(prefixes, addresses, t)
  {
    var o := SearchList(prefixes, interval, addresses).outcome;
    SearchOutcome(prefixes, interval, addresses);
    DistinctAllFound(prefixes, addresses, |addresses|);
    assert o.Done?;
    DistinctAllFound(prefixes, addresses, o.tries);
    forall t | 0 <= t < o.tries ensures !AllHitBy(prefixes, addresses, t) {
      DistinctAllFound(prefixes, addresses, t);
    }
  }

  // ---------------------------------------------------------------------------
  // Worked runs.

  /** One prefix, hit only by the third address: one match at attempt 3, then the guard fails. */
  lemma ExampleThirdAttempt()
    ensures SearchList(["A"], 100000, ["1X", "1X", "1A7"]) == Run([Match("A", "1A7", 3)], Done(3))
  {
    assert !Hits("A", "1X") by { assert "1X"[..2][1] != Target("A")[1]; }
    assert ClaimFrom(["A"], 0, {}, "1X") == Claim([], {});
    assert ClaimFrom(["A"], 0, {}, "1A7") == Claim(["A"], {"A"});
  }

  /** Overlapping prefixes: one address claims both, in list order, and the search ends at attempt 1. */
  lemma ExampleOverlap()
    ensures SearchList(["AB", "A"], 100000, ["1AB9"]) == Run([Match("AB", "1AB9", 1), Match("A", "1AB9", 1)], Done(1))
  {
    OverlapClaim();
    assert |{"AB", "A"}| == 2;
  }

  /** The claim behind `ExampleOverlap`. */
  lemma OverlapClaim()
    ensures ClaimFrom(["AB", "A"], 0, {}, "1AB9") == Claim(["AB", "A"], {"AB", "A"})
  {
    var ps, a := ["AB", "A"], "1AB9";
    assert Hits("AB", a) by { assert a[..3] == Target("AB"); }
    assert Hits("A", a) by { assert a[..2] == Target("A"); }
    assert ClaimFrom(ps, 2, {"AB", "A"}, a) == Claim([], {"AB", "A"});
    assert ClaimFrom(ps, 1, {"AB"}, a) == Claim(["A"], {"AB", "A"});
  }

  /** Interval 2 and no hits in five addresses: status lines after attempts 2 and 4 only. */
  lemma ExampleEveryOther()
    ensures SearchList(["Z"], 2, ["1X", "1X", "1X", "1X", "1X"]) == Run([Status(2, 0), Status(4, 0)], StreamEnd(5))
  {
    var ps, a := ["Z"], ["1X", "1X", "1X", "1X", "1X"];
    assert !Hits("Z", "1X") by { assert "1X"[..2][1] != Target("Z")[1]; }
    assert ClaimFrom(ps, 1, {}, "1X") == Claim([], {});
    assert ClaimFrom(ps, 0, {}, "1X") == Claim([], {});
    assert Loop(ps, 2, a, 4, {}).events == [];
    assert Loop(ps, 2, a, 3, {}).events == [Status(4, 0)];
    assert Loop(ps, 2, a, 2, {}).events == [Status(4, 0)];
    assert Loop(ps, 2, a, 1, {}).events == [Status(2, 0), Status(4, 0)];
  }
}

=== FILE: matching.dfy ===
/**
  What both search loops share: the target an address must start with, the
  Base58 alphabet addresses are written in, and Python's `%` as used by the
  status check.
*/
module Matching {
  import opened Text
  import opened Arith

  /** The version character every address of the chain's pay-to-public-key-hash kind starts with. */
  const Version: char := '1'

  /** `'1' + prefix`. */
  function Target(prefix: string): (t: string)
    ensures |t| == |prefix| + 1 && t[0] == Version && t[1..] == prefix
  {
    [Version] + prefix
  }

  /** `addr.startswith(target)` for the target of `prefix`. */
  predicate Hits(prefix: string, address: string)
    ensures Hits(prefix, address) ==> |address| > |prefix| && address[0] == Version
  {
    StartsWith(address, Target(prefix))
  }

  /**
    An address hits a prefix exactly when it is the version character, then
    the prefix, then anything: the match is positional and case-sensitive.
  */
  lemma HitsMeans(prefix: string, address: string)
    ensures Hits(prefix, address) <==> exists suffix :: address == Target(prefix) + suffix
    ensures Hits(prefix, address) ==> |address| > |prefix| && address[0] == Version
    ensures Hits(prefix, address) ==> forall i :: 0 <= i < |prefix| ==> address[i + 1] == prefix[i]
  {
    var t := Target(prefix);
    if Hits(prefix, address) {
      var suffix := address[|t|..];
      assert address == t + suffix;
      forall i | 0 <= i < |prefix| ensures address[i + 1] == prefix[i] {
        assert address[..|t|][i + 1] == t[i + 1];
      }
    }
    if exists suffix :: address == t + suffix {
      var suffix :| address == t + suffix;
      assert address[..|t|] == t;
    }
  }

  /** No address from position `lo` up to, but not including, `hi` hits `prefix`. */
  predicate Misses(prefix: string, addresses: seq<string>, lo: nat, hi: nat)
    requires hi <= |addresses|
  {
    forall j :: lo <= j < hi ==> !Hits(prefix, addresses[j])
  }

  /** Some of the first `k` addresses hits `prefix`. */
  predicate HitBefore(prefix: string, addresses: seq<string>, k: nat)
    requires k <= |addresses|
  {
    exists j :: 0 <= j < k && Hits(prefix, addresses[j])
  }

  /** `addresses[j]` is the first address of the stream that hits `prefix`. */
  predicate FirstHit(prefix: string, addresses: seq<string>, j: nat) {
    && j < |addresses|
    && Hits(prefix, addresses[j])
    && Misses(prefix, addresses, 0, j)
  }

  /** The characters of the Base58 alphabet: digits 1-9 and letters other than 0, O, I and l. */
  predicate IsBase58Char(c: char) {
    || ('1' <= c <= '9')
    || ('A' <= c <= 'Z' && c != 'I' && c != 'O')
    || ('a' <= c <= 'z' && c != 'l')
  }

  predicate IsBase58(s: string) {
    forall i :: 0 <= i < |s| ==> IsBase58Char(s[i])
  }

  /**
    Alphanumeric validation lets `0`, `O`, `I` and `l` through, but no Base58
    address can hit a prefix containing one of them.
  */
  lemma OutsideAlphabetNeverHits(prefix: string, address: string, i: nat)
    requires IsBase58(address)
    requires i < |prefix| && !IsBase58Char(prefix[i])
    ensures !Hits(prefix, address)
  {
    HitsMeans(prefix, address);
  }

  /**
    Python's `a % b` for `b != 0`: the remainder is congruent to `a` modulo
    `b` and takes the sign of the divisor,
    where Dafny's own `%` is never negative. The two agree on whether `b`
    divides `a`, so a negative status interval still fires at its multiples.
  */
  function PyMod(a: int, b: int): (r: int)
    requires b != 0
    ensures b > 0 ==> 0 <= r < b
    ensures b < 0 ==> b < r <= 0
    ensures r % b == a % b
    ensures r == 0 <==> a % b == 0
  {
    var m := a % b;
    DivModUnique(m, b, 0, m);
    if b < 0 && m != 0 then
      DivModUnique(m + b, b, 1, m);
      m + b
    else m
  }

  /** `tries % status_interval == 0`, for a non-zero interval: the interval divides the attempt count. */
  predicate StatusDue(tries: nat, interval: int)
    requires interval != 0
  {
    PyMod(tries, interval) == 0
  }

  /** A status line is due exactly when the interval divides the attempt count, whatever its sign. */
  lemma StatusDueDivides(tries: nat, interval: int)
    requires interval != 0
    ensures StatusDue(tries, interval) <==> tries % interval == 0
    ensures StatusDue(tries, interval) <==> StatusDue(tries, -interval)
  {
    DivModNegate(tries, interval);
  }
}

=== FILE: single_search.dfy ===
/**
  `generate_vanity`: the single-prefix search. Each attempt takes the next
  address; a hit ends the search at once, before the status check, so the
  attempt that finds the prefix never prints a status line. Otherwise a status
  line follows every attempt whose number the interval divides.

  As in the list search, the key provider is replaced by the sequence of
  addresses it would produce: attempt `t` sees `addresses[t - 1]`.
*/
module SingleSearch {
  import opened Matching
  import ListSearch

  datatype Outcome =
    /** The JSON report: the matching address and the attempt that produced it. */
    | Found(address: string, tries: nat)
    /** `tries % status_interval` raised at attempt `tries` because the interval is 0. */
    | ZeroDivision(tries: nat)
    /** All `tries` supplied addresses were used without a hit. */
    | StreamEnd(tries: nat)

  /** The attempts a `[STATUS]` line was printed after, in order, and how the search ended. */
  datatype Run = Run(ticks: seq<nat>, outcome: Outcome)

  /** The `while True` loop entered with `k` attempts made. */
  function Search(prefix: string, interval: int, addresses: seq<string>, k: nat): (r: Run)
    requires k <= |addresses|
    ensures k <= r.outcome.tries <= |addresses|
    decreases |addresses| - k
  {
    if k == |addresses| then Run([], StreamEnd(k))
    else
      var tries := k + 1;
      var address := addresses[k];
      if Hits(prefix, address) then Run([], Found(address, tries))
      else if interval == 0 then Run([], ZeroDivision(tries))
      else
        var rest := Search(prefix, interval, addresses, tries);
        Run((if StatusDue(tries, interval) then [tries] else []) + rest.ticks, rest.outcome)
  }

  /**
    `generate_vanity(prefix, interval)` over the given address stream: the
    reported address is the one the reported attempt produced, and it hits
    the prefix; running out of addresses means all of them were used.
  */
  function GenerateVanity(prefix: string, interval: int, addresses: seq<string>): (r: Run)
    ensures r.outcome.tries <= |addresses|
    ensures r.outcome.Found? ==>
      0 < r.outcome.tries && r.outcome.address == addresses[r.outcome.tries - 1] && Hits(prefix, r.outcome.address)
    ensures r.outcome.StreamEnd? ==> r.outcome.tries == |addresses|
  {
    SearchOutcome(prefix, interval, addresses, 0);
    Search(prefix, interval, addresses, 0)
  }

  /**
    How the search from `k` ends: at the first hit from position `k` on; at
    the end of the stream only if nothing from `k` on hits; on a division by
    zero exactly when the interval is 0 and the next attempt misses. A hit on
    the next attempt returns before the modulo, whatever the interval.
  */
  lemma {:induction false} SearchOutcome(prefix: string, interval: int, addresses: seq<string>, k: nat)
    requires k <= |addresses|
    ensures var o := Search(prefix, interval, addresses, k).outcome;
      && (o.Found? ==>
            && k < o.tries && o.address == addresses[o.tries - 1]
            && Hits(prefix, o.address) && Misses(prefix, addresses, k, o.tries - 1))
      && (o.StreamEnd? ==> o.tries == |addresses| && Misses(prefix, addresses, k, |addresses|))
      && (o.ZeroDivision? ==> interval == 0 && o.tries == k + 1 && !Hits(prefix, addresses[k]))
      && (k < |addresses| && Hits(prefix, addresses[k]) ==> o == Found(addresses[k], k + 1))
      && (interval == 0 && k < |addresses| && !Hits(prefix, addresses[k]) ==> o == ZeroDivision(k + 1))
    decreases |addresses| - k
  {
    if k < |addresses| && !Hits(prefix, addresses[k]) && interval != 0 {
      SearchOutcome(prefix, interval, addresses, k + 1);
    }
  }

  /**
    Status lines: after every attempt the interval divides, up to but not
    including the attempt that finds the prefix.
  */
  lemma {:induction false} SearchTicks(prefix: string, interval: int, addresses: seq<string>, k: nat)
    requires k <= |addresses|
    ensures var ticks := Search(prefix, interval, addresses, k).ticks;
      && (forall t: nat :: t in ticks <==>
            interval != 0 && k < t <= |addresses| && StatusDue(t, interval) && Misses(prefix, addresses, k, t))
      && (forall i, j :: 0 <= i < j < |ticks| ==> ticks[i] < ticks[j])
    decreases |addresses| - k
  {
    if k < |addresses| && !Hits(prefix, addresses[k]) && interval != 0 {
      SearchTicks(prefix, interval, addresses, k + 1);
      var rest := Search(prefix, interval, addresses, k + 1).ticks;
      var head: seq<nat> := if StatusDue(k + 1, interval) then [k + 1] else [];
      TicksCombine(head, rest, k);
    }
  }

  /** One attempt's status line in front of the later ones keeps them increasing and after `k`. */
  lemma TicksCombine(head: seq<nat>, rest: seq<nat>, k: nat)
    requires |head| <= 1 && forall i :: 0 <= i < |head| ==> head[i] == k + 1
    requires forall t :: t in rest ==> k + 1 < t
    requires forall i, j :: 0 <= i < j < |rest| ==> rest[i] < rest[j]
    ensures forall i, j :: 0 <= i < j < |head + rest| ==> (head + rest)[i] < (head + rest)[j]
  {
    var all := head + rest;
    forall i, j | 0 <= i < j < |all| ensures all[i] < all[j] {
      if i < |head| {
        assert all[j] == rest[j - |head|] && all[j] in rest;
      } else {
        assert all[i] == rest[i - |head|] && all[j] == rest[j - |head|];
      }
    }
  }

  /** With a non-zero interval the search finds the prefix exactly when some address of the stream hits it. */
  lemma FindsIffHit(prefix: string, interval: int, addresses: seq<string>)
    requires interval != 0
    ensures var o := GenerateVanity(prefix, interval, addresses).outcome;
      && (o.Found? <==> exists j :: 0 <= j < |addresses| && Hits(prefix, addresses[j]))
      && (o.Found? ==> FirstHit(prefix, addresses, o.tries - 1) && o.address == addresses[o.tries - 1])
  {
    SearchOutcome(prefix, interval, addresses, 0);
  }

  /**
    A prefix with a character outside the Base58 alphabet passes validation
    but is never found: on a stream of Base58 addresses the source loops until
    the stream ends.
  */
  lemma NeverFoundOutsideAlphabet(prefix: string, interval: int, addresses: seq<string>, i: nat)
    requires forall j :: 0 <= j < |addresses| ==> IsBase58(addresses[j])
    requires i < |prefix| && !IsBase58Char(prefix[i])
    ensures !GenerateVanity(prefix, interval, addresses).outcome.Found?
  {
    SearchOutcome(prefix, interval, addresses, 0);
    forall j | 0 <= j < |addresses| ensures !Hits(prefix, addresses[j]) {
      OutsideAlphabetNeverHits(prefix, addresses[j], i);
    }
  }

  /**
    With a non-zero interval, the single search and the list search for the
    one-entry list `[prefix]` stop at the same attempt, and a find by one is a
    match reported by the other. (Their status lines differ: the list search
    prints one after the matching attempt too.)
  */
  lemma {:induction false} AgreesWithList(prefix: string, interval: int, addresses: seq<string>, k: nat)
    requires interval != 0 && k <= |addresses|
    ensures var s := Search(prefix, interval, addresses, k).outcome;
      var l := ListSearch.Loop([prefix], interval, addresses, k, {});
      && s.tries == l.outcome.tries
      && (s.Found? <==> l.outcome.Done?)
      && (s.Found? ==> ListSearch.Match(prefix, s.address, s.tries) in l.events)
    decreases |addresses| - k
  {
    if k < |addresses| {
      var a := addresses[k];
      if Hits(prefix, a) {
        assert ListSearch.ClaimFrom([prefix], 0, {}, a).claimed == [prefix];
      } else {
        assert ListSearch.ClaimFrom([prefix], 0, {}, a) == ListSearch.Claim([], {});
        AgreesWithList(prefix, interval, addresses, k + 1);
      }
    }
  }

  /**
    The attempt that finds the prefix prints no status line even when the
    interval divides it; the list search prints one after its match.
  */
  lemma ExampleFindBeforeStatus()
    ensures GenerateVanity("A", 3, ["1X", "1X", "1A7"]) == Run([], Found("1A7", 3))
    ensures ListSearch.SearchList(["A"], 3, ["1X", "1X", "1A7"])
            == ListSearch.Run([ListSearch.Match("A", "1A7", 3), ListSearch.Status(3, 1)], ListSearch.Done(3))
  {
    assert !Hits("A", "1X") by { assert "1X"[..2][1] != Target("A")[1]; }
  }
}

=== FILE: text.dfy ===
/**
  String helpers with Python's meaning: `str.startswith`, `str.strip` with and
  without an argument, `str.isalnum`, `re.split(r'[;,]+', ...)`, `str.split(c)`
  and `c.join(...)`. Strings are sequences of Unicode scalar values.
*/
module Text {

  /** `s.startswith(prefix)`. */
  predicate StartsWith(s: string, prefix: string) {
    |prefix| <= |s| && s[..|prefix|] == prefix
  }

  /**
    The characters Python's `str.isspace` accepts, and therefore the ones
    `str.strip()` without an argument removes: the ASCII controls 0x09-0x0D and
    0x1C-0x1F, the space, NEL, NO-BREAK SPACE and the Unicode space separators
    and line/paragraph separators.
  */
  predicate IsSpace(c: char) {
    || ('\U{9}' <= c <= '\U{D}')
    || ('\U{1C}' <= c <= '\U{20}')
    || c == '\U{85}' || c == '\U{A0}' || c == '\U{1680}'
    || ('\U{2000}' <= c <= '\U{200A}')
    || c == '\U{2028}' || c == '\U{2029}' || c == '\U{202F}'
    || c == '\U{205F}' || c == '\U{3000}'
  }

  /** An ASCII letter or decimal digit. */
  predicate IsAlnumChar(c: char) {
    ('a' <= c <= 'z') || ('A' <= c <= 'Z') || ('0' <= c <= '9')
  }

  /** `s.isalnum()`: non-empty and made of letters and digits only. */
  predicate IsAlnum(s: string) {
    |s| > 0 && forall i :: 0 <= i < |s| ==> IsAlnumChar(s[i])
  }

  /** A separator of the prefix list: the character class `[;,]`. */
  predicate IsSep(c: char) {
    c == ';' || c == ','
  }

  /** True when no character of `s` satisfies `drop`. */
  predicate NoneOf(s: string, drop: char -> bool) {
    forall i :: 0 <= i < |s| ==> !drop(s[i])
  }

  /** True when every character of `s` satisfies `drop`. */
  predicate AllOf(s: string, drop: char -> bool) {
    forall i :: 0 <= i < |s| ==> drop(s[i])
  }

  /** The characters of `s` that do not satisfy `drop`, in order. */
  function Without(s: string, drop: char -> bool): (r: string)
    ensures |r| <= |s|
    ensures NoneOf(r, drop)
  {
    if s == [] then []
    else (if drop(s[0]) then [] else [s[0]]) + Without(s[1..], drop)
  }

  lemma {:induction false} WithoutAppend(x: string, y: string, drop: char -> bool)
    ensures Without(x + y, drop) == Without(x, drop) + Without(y, drop)
    decreases |x|
  {
    if x == [] {
      assert x + y == y;
    } else {
      assert (x + y)[1..] == x[1..] + y;
      WithoutAppend(x[1..], y, drop);
    }
  }

  lemma {:induction false} WithoutAllOf(s: string, drop: char -> bool)
    requires AllOf(s, drop)
    ensures Without(s, drop) == []
    decreases |s|
  {
    if s != [] {
      WithoutAllOf(s[1..], drop);
    }
  }

  lemma {:induction false} WithoutNoneOf(s: string, drop: char -> bool)
    requires NoneOf(s, drop)
    ensures Without(s, drop) == s
    decreases |s|
  {
    if s != [] {
      WithoutNoneOf(s[1..], drop);
      assert [s[0]] + s[1..] == s;
    }
  }

  /** The end of the maximal run of `drop` characters of `s` that starts at index `i`. */
  function SkipForward(s: string, i: nat, drop: char -> bool): (j: nat)
    requires i <= |s|
    ensures i <= j <= |s|
    ensures forall k :: i <= k < j ==> drop(s[k])
    ensures j < |s| ==> !drop(s[j])
    decreases |s| - i
  {
    if i < |s| && drop(s[i]) then SkipForward(s, i + 1, drop) else i
  }

  /** The start of the maximal run of `drop` characters of `s` that ends at index `j`, not going below `lo`. */
  function SkipBackward(s: string, lo: nat, j: nat, drop: char -> bool): (i: nat)
    requires lo <= j <= |s|
    ensures lo <= i <= j
    ensures forall k :: i <= k < j ==> drop(s[k])
    ensures i > lo ==> !drop(s[i - 1])
    decreases j
  {
    if j > lo && drop(s[j - 1]) then SkipBackward(s, lo, j - 1, drop) else j
  }

  /**
    `s.strip(chars)`: the longest middle slice of `s` that neither starts nor
    ends with a `drop` character; everything cut off on either side is a
    `drop` character.
  */
  function Strip(s: string, drop: char -> bool): string {
    var i := SkipForward(s, 0, drop);
    s[i..SkipBackward(s, i, |s|, drop)]
  }

  /** What `Strip` leaves: a middle slice with no `drop` character at either end, and only `drop` characters cut off. */
  lemma StripShape(s: string, drop: char -> bool)
    ensures var r := Strip(s, drop);
      && (exists i :: 0 <= i <= i + |r| <= |s| && r == s[i..i + |r|]
                      && AllOf(s[..i], drop) && AllOf(s[i + |r|..], drop))
      && (r == [] || (!drop(r[0]) && !drop(r[|r| - 1])))
  {
    var i := SkipForward(s, 0, drop);
    var j := SkipBackward(s, i, |s|, drop);
    var r := s[i..j];
    assert i + |r| == j;
    CutOff(s, i, j, drop);
    assert 0 <= i <= i + |r| <= |s| && r == s[i..i + |r|]
      && AllOf(s[..i], drop) && AllOf(s[i + |r|..], drop);
    assert r == [] || (r[0] == s[i] && r[|r| - 1] == s[j - 1]);
  }

  /** What lies before `i` and from `j` on is all `drop` characters. */
  lemma CutOff(s: string, i: nat, j: nat, drop: char -> bool)
    requires i <= j <= |s|
    requires forall k :: 0 <= k < i ==> drop(s[k])
    requires forall k :: j <= k < |s| ==> drop(s[k])
    ensures AllOf(s[..i], drop) && AllOf(s[j..], drop)
  {
    forall k | 0 <= k < i ensures drop(s[..i][k]) {
      assert s[..i][k] == s[k];
    }
    forall k | 0 <= k < |s| - j ensures drop(s[j..][k]) {
      assert s[j..][k] == s[j + k];
    }
  }

  /** What `Strip` leaves is no longer than `s` and has no `drop` character at either end. */
  lemma StripEnds(s: string, drop: char -> bool)
    ensures var r := Strip(s, drop); |r| <= |s| && (r == [] || (!drop(r[0]) && !drop(r[|r| - 1])))
  {
    var i := SkipForward(s, 0, drop);
    var j := SkipBackward(s, i, |s|, drop);
    if i < j {
      assert s[i..j][0] == s[i] && s[i..j][j - i - 1] == s[j - 1];
    }
  }

  /** `s.strip()`: no longer than `s`, and no whitespace left at either end. */
  function StripSpace(s: string): (r: string)
    ensures |r| <= |s|
    ensures r == [] || (!IsSpace(r[0]) && !IsSpace(r[|r| - 1]))
  {
    StripEnds(s, IsSpace);
    Strip(s, IsSpace)
  }

  /** The test for one particular character. */
  function Is(c: char): char -> bool {
    x => x == c
  }

  /** `s.strip(c)` for a single character `c`. */
  function StripChar(s: string, c: char): string {
    Strip(s, Is(c))
  }

  /** Stripping keeps no character that `s` lacks. */
  lemma StripKeepsNoneOf(s: string, drop: char -> bool, other: char -> bool)
    requires NoneOf(s, other)
    ensures NoneOf(Strip(s, drop), other)
  {
    var i := SkipForward(s, 0, drop);
    var r := s[i..SkipBackward(s, i, |s|, drop)];
    assert r == Strip(s, drop);
    forall k | 0 <= k < |r| ensures !other(r[k]) {
      assert r[k] == s[i + k];
    }
  }

  /** One `drop` character on each side of a string that neither starts nor ends with one is stripped off. */
  lemma StripSurrounded(a: char, x: string, b: char, drop: char -> bool)
    requires drop(a) && drop(b) && x != [] && !drop(x[0]) && !drop(x[|x| - 1])
    ensures Strip([a] + x + [b], drop) == x
  {
    var s := [a] + x + [b];
    assert SkipForward(s, 1, drop) == 1;
    assert SkipForward(s, 0, drop) == 1;
    assert SkipBackward(s, 1, |s| - 1, drop) == |s| - 1;
    assert SkipBackward(s, 1, |s|, drop) == |s| - 1;
    assert s[1..|s| - 1] == x;
  }

  /** Any runs of `drop` characters around a string that neither starts nor ends with one are stripped off. */
  lemma StripPadded(a: string, x: string, b: string, drop: char -> bool)
    requires AllOf(a, drop) && AllOf(b, drop) && x != [] && !drop(x[0]) && !drop(x[|x| - 1])
    ensures Strip(a + x + b, drop) == x
  {
    var s := a + x + b;
    forall k | 0 <= k < |a| ensures drop(s[k]) {
      assert s[k] == a[k];
    }
    assert s[|a|] == x[0];
    SkipForwardTo(s, 0, |a|, drop);
    forall k | |a| + |x| <= k < |s| ensures drop(s[k]) {
      assert s[k] == b[k - |a| - |x|];
    }
    assert s[|a| + |x| - 1] == x[|x| - 1];
    SkipBackwardTo(s, |a|, |s|, |a| + |x|, drop);
    assert s[|a|..|a| + |x|] == x;
  }

  /** Stripping removes only `drop` characters: the rest of `s` survives in order. */
  lemma {:induction false} StripKeepsRest(s: string, drop: char -> bool)
    ensures Without(Strip(s, drop), drop) == Without(s, drop)
  {
    var i := SkipForward(s, 0, drop);
    var j := SkipBackward(s, i, |s|, drop);
    assert s == s[..i] + s[i..j] + s[j..];
    assert AllOf(s[..i], drop) && AllOf(s[j..], drop);
    WithoutAppend(s[..i] + s[i..j], s[j..], drop);
    WithoutAppend(s[..i], s[i..j], drop);
    WithoutAllOf(s[..i], drop);
    WithoutAllOf(s[j..], drop);
  }

  /** A string that neither starts nor ends with a `drop` character is left as it is. */
  lemma StripUnchanged(s: string, drop: char -> bool)
    requires s == [] || (!drop(s[0]) && !drop(s[|s| - 1]))
    ensures Strip(s, drop) == s
  {
    assert SkipForward(s, 0, drop) == 0;
    assert SkipBackward(s, 0, |s|, drop) == |s|;
    assert s[0..|s|] == s;
  }

  /** Stripping is idempotent. */
  lemma StripIdempotent(s: string, drop: char -> bool)
    ensures Strip(Strip(s, drop), drop) == Strip(s, drop)
  {
    StripUnchanged(Strip(s, drop), drop);
  }

  /** The index of the first character of `s` satisfying `stop`, or `|s|` if none does. */
  function IndexWhere(s: string, stop: char -> bool): (i: nat)
    ensures i <= |s|
    ensures NoneOf(s[..i], stop)
    ensures i < |s| ==> stop(s[i])
  {
    if s == [] then 0
    else if stop(s[0]) then 0
    else 1 + IndexWhere(s[1..], stop)
  }

  /** The first `stop` character of `a + b` is the first of `b` when `a` has none. */
  lemma {:induction false} IndexWhereAfter(a: string, b: string, stop: char -> bool)
    requires NoneOf(a, stop)
    requires b == [] || stop(b[0])
    ensures IndexWhere(a + b, stop) == |a|
    decreases |a|
  {
    if a == [] {
      assert a + b == b;
    } else {
      assert (a + b)[1..] == a[1..] + b;
      IndexWhereAfter(a[1..], b, stop);
    }
  }

  /**
    `re.split(r'[;,]+', s)`: the pattern matches the leftmost maximal run of
    separators, the text before it is a piece, and splitting resumes after the
    run. A leading or trailing run yields an empty piece.
  */
  function SplitRuns(s: string): (pieces: seq<string>)
    ensures |pieces| >= 1
    ensures forall k :: 0 <= k < |pieces| ==> NoneOf(pieces[k], IsSep)
    decreases |s|
  {
    var i := IndexWhere(s, IsSep);
    if i == |s| then [s]
    else [s[..i]] + SplitRuns(s[SkipForward(s, i, IsSep)..])
  }

  /** A piece without separators is not split. */
  lemma SplitRunsNone(w: string)
    requires NoneOf(w, IsSep)
    ensures SplitRuns(w) == [w]
  {
    assert w == w + [];
    IndexWhereAfter(w, [], IsSep);
  }

  /**
    Words joined by runs: the first word, then for each later word the run
    in front of it and the word. `JoinWith` is the case where every run is
    one and the same character.
  */
  function JoinRuns(ws: seq<string>, runs: seq<string>): string
    requires |ws| >= 1 && |runs| == |ws| - 1
    decreases |ws|
  {
    if |ws| == 1 then ws[0] else ws[0] + runs[0] + JoinRuns(ws[1..], runs[1..])
  }

  /** `n` copies of `w`. */
  function Repeat(w: string, n: nat): (r: seq<string>)
    ensures |r| == n && forall k :: 0 <= k < n ==> r[k] == w
  {
    if n == 0 then [] else [w] + Repeat(w, n - 1)
  }

  /** Joining with one character is joining with runs that are each that character alone. */
  lemma {:induction false} JoinWithRuns(ws: seq<string>, c: char)
    requires |ws| >= 1
    ensures JoinWith(ws, c) == JoinRuns(ws, Repeat([c], |ws| - 1))
    decreases |ws|
  {
    if |ws| > 1 {
      JoinWithRuns(ws[1..], c);
      assert Repeat([c], |ws| - 1)[1..] == Repeat([c], |ws| - 2);
    }
  }

  /** The ways `re.split(r'[;,]+', s)` can cut a string: non-empty separator runs between separator-free words, none empty inside. */
  predicate RunsShape(ws: seq<string>, runs: seq<string>) {
    && |ws| >= 1 && |runs| == |ws| - 1
    && (forall k :: 0 <= k < |ws| ==> NoneOf(ws[k], IsSep))
    && (forall k :: 0 < k < |ws| - 1 ==> ws[k] != [])
    && (forall k :: 0 <= k < |runs| ==> runs[k] != [] && AllOf(runs[k], IsSep))
  }

  /** `SkipForward` stops exactly at the end of a run of `drop` characters. */
  lemma SkipForwardTo(s: string, i: nat, j: nat, drop: char -> bool)
    requires i <= j <= |s|
    requires forall k :: i <= k < j ==> drop(s[k])
    requires j < |s| ==> !drop(s[j])
    ensures SkipForward(s, i, drop) == j
  {
  }

  /** `SkipBackward` stops exactly at the start of a run of `drop` characters. */
  lemma SkipBackwardTo(s: string, lo: nat, j: nat, i: nat, drop: char -> bool)
    requires lo <= i <= j <= |s|
    requires forall k :: i <= k < j ==> drop(s[k])
    requires i > lo ==> !drop(s[i - 1])
    ensures SkipBackward(s, lo, j, drop) == i
  {
  }

  /** A piece, a whole run of separators, then a rest that does not start with one: the piece comes off first. */
  lemma SplitRunsRun(w: string, run: string, rest: string)
    requires NoneOf(w, IsSep) && run != [] && AllOf(run, IsSep) && (rest == [] || !IsSep(rest[0]))
    ensures SplitRuns(w + run + rest) == [w] + SplitRuns(rest)
  {
    var s := w + run + rest;
    assert s == w + (run + rest);
    IndexWhereAfter(w, run + rest, IsSep);
    forall k | |w| <= k < |w| + |run| ensures IsSep(s[k]) {
      assert s[k] == run[k - |w|];
    }
    if rest != [] {
      assert s[|w| + |run|] == rest[0];
    }
    SkipForwardTo(s, |w|, |w| + |run|, IsSep);
    assert s[..|w|] == w;
    assert s[|w| + |run|..] == rest;
  }

  /**
    Splitting undoes any join by separator runs: whatever runs stand between
    the words, the words come back.
  */
  lemma {:induction false} SplitRunsJoinRuns(ws: seq<string>, runs: seq<string>)
    requires RunsShape(ws, runs)
    ensures SplitRuns(JoinRuns(ws, runs)) == ws
    decreases |ws|
  {
    if |ws| == 1 {
      SplitRunsNone(ws[0]);
    } else {
      var tail := JoinRuns(ws[1..], runs[1..]);
      if |ws| > 2 {
        assert tail[0] == ws[1][0];
      }
      SplitRunsRun(ws[0], runs[0], tail);
      SplitRunsJoinRuns(ws[1..], runs[1..]);
      assert ws == [ws[0]] + ws[1..];
    }
  }

  /** A join by runs of non-empty words starts with the first word and ends with the last one. */
  lemma {:induction false} JoinRunsEnds(ws: seq<string>, runs: seq<string>)
    requires |ws| >= 1 && |runs| == |ws| - 1 && forall k :: 0 <= k < |ws| ==> ws[k] != []
    ensures var s := JoinRuns(ws, runs); s != [] && s[0] == ws[0][0] && s[|s| - 1] == ws[|ws| - 1][|ws[|ws| - 1]| - 1]
    decreases |ws|
  {
    if |ws| > 1 {
      var tail := ws[1..];
      assert tail[|tail| - 1] == ws[|ws| - 1];
      JoinRunsEnds(tail, runs[1..]);
    }
  }

  /** The separator runs `re.split(r'[;,]+', s)` matches, left to right. */
  function SeparatorRuns(s: string): seq<string>
    decreases |s|
  {
    var i := IndexWhere(s, IsSep);
    if i == |s| then []
    else
      var j := SkipForward(s, i, IsSep);
      [s[i..j]] + SeparatorRuns(s[j..])
  }

  /**
    Every split has that shape: the string is its pieces joined by the
    separator runs between them, every run is non-empty, and only the first
    and last piece can be empty.
  */
  lemma {:induction false} SplitRunsShape(s: string)
    ensures RunsShape(SplitRuns(s), SeparatorRuns(s)) && JoinRuns(SplitRuns(s), SeparatorRuns(s)) == s
    ensures s != [] && !IsSep(s[0]) ==> SplitRuns(s)[0] != []
    decreases |s|
  {
    var i := IndexWhere(s, IsSep);
    if i == |s| {
      assert SplitRuns(s) == [s] && SeparatorRuns(s) == [];
    } else {
      var j := SkipForward(s, i, IsSep);
      SplitRunsShape(s[j..]);
      ShapeStep(s, i, j);
    }
  }

  /** One step of the split: the first piece and run in front of the shape of the rest. */
  lemma ShapeStep(s: string, i: nat, j: nat)
    requires i == IndexWhere(s, IsSep) < |s| && j == SkipForward(s, i, IsSep)
    requires RunsShape(SplitRuns(s[j..]), SeparatorRuns(s[j..]))
    requires JoinRuns(SplitRuns(s[j..]), SeparatorRuns(s[j..])) == s[j..]
    requires s[j..] != [] && !IsSep(s[j..][0]) ==> SplitRuns(s[j..])[0] != []
    ensures RunsShape(SplitRuns(s), SeparatorRuns(s)) && JoinRuns(SplitRuns(s), SeparatorRuns(s)) == s
  {
    var rest := s[j..];
    SkippedRun(s, i, j);
    SplitRunsUnfold(s, i, j);
    var tail := SplitRuns(rest);
    assert |tail| > 1 ==> tail[0] != [] by {
      if rest != [] {
        assert rest[0] == s[j];
      }
    }
    ShapeCons(s, s[..i], s[i..j], rest, SplitRuns(s), SeparatorRuns(s), tail, SeparatorRuns(rest));
  }

  /** The first piece and run of a split, when `s` holds a separator. */
  lemma SplitRunsUnfold(s: string, i: nat, j: nat)
    requires i == IndexWhere(s, IsSep) < |s| && j == SkipForward(s, i, IsSep)
    ensures SplitRuns(s) == [s[..i]] + SplitRuns(s[j..])
    ensures SeparatorRuns(s) == [s[i..j]] + SeparatorRuns(s[j..])
    ensures s == s[..i] + s[i..j] + s[j..]
  {
    SplitRunsHead(s, i, j);
    SeparatorRunsHead(s, i, j);
    SliceThree(s, i, j);
  }

  /** A string is its three slices at `i` and `j`. */
  lemma SliceThree(s: string, i: nat, j: nat)
    requires i <= j <= |s|
    ensures s == s[..i] + s[i..j] + s[j..]
  {
    assert s == s[..i] + s[i..j] + s[j..];
  }

  /** `SplitRuns` unfolded once. */
  lemma SplitRunsHead(s: string, i: nat, j: nat)
    requires i == IndexWhere(s, IsSep) < |s| && j == SkipForward(s, i, IsSep)
    ensures SplitRuns(s) == [s[..i]] + SplitRuns(s[j..])
  {
  }

  /** `SeparatorRuns` unfolded once. */
  lemma SeparatorRunsHead(s: string, i: nat, j: nat)
    requires i == IndexWhere(s, IsSep) < |s| && j == SkipForward(s, i, IsSep)
    ensures SeparatorRuns(s) == [s[i..j]] + SeparatorRuns(s[j..])
  {
  }

  /** What `SkipForward` passes over is a non-empty run of separators when it starts on one. */
  lemma SkippedRun(s: string, i: nat, j: nat)
    requires i < |s| && IsSep(s[i]) && j == SkipForward(s, i, IsSep)
    ensures s[i..j] != [] && AllOf(s[i..j], IsSep)
  {
    forall k | 0 <= k < j - i ensures IsSep(s[i..j][k]) {
      assert s[i..j][k] == s[i + k];
    }
  }

  /** A separator-free word and a run in front of a split shape make a longer one. */
  lemma ShapeCons(s: string, w: string, run: string, rest: string,
                  ws: seq<string>, runs: seq<string>, tail: seq<string>, truns: seq<string>)
    requires s == w + run + rest && ws == [w] + tail && runs == [run] + truns
    requires NoneOf(w, IsSep) && run != [] && AllOf(run, IsSep)
    requires RunsShape(tail, truns) && JoinRuns(tail, truns) == rest && (|tail| > 1 ==> tail[0] != [])
    ensures RunsShape(ws, runs) && JoinRuns(ws, runs) == s
  {
    assert ws[1..] == tail && runs[1..] == truns;
  }

  /** The concatenation of a list of strings, `''.join(ss)`. */
  function Concat(ss: seq<string>): string {
    if ss == [] then [] else ss[0] + Concat(ss[1..])
  }

  /** A piece without `drop` characters, then a run of them, then the rest. */
  lemma WithoutPieceRun(piece: string, run: string, rest: string, drop: char -> bool)
    requires NoneOf(piece, drop) && AllOf(run, drop)
    ensures Without(piece + run + rest, drop) == piece + Without(rest, drop)
  {
    WithoutNoneOf(piece, drop);
    WithoutAllOf(run, drop);
    WithoutAppend(piece, run, drop);
    assert Without(piece + run, drop) == piece + [] == piece;
    WithoutAppend(piece + run, rest, drop);
  }

  /** Splitting loses exactly the separators: the pieces spell out the rest of `s`, in order. */
  lemma {:induction false} SplitRunsKeepsText(s: string)
    ensures Concat(SplitRuns(s)) == Without(s, IsSep)
    decreases |s|
  {
    var i := IndexWhere(s, IsSep);
    if i == |s| {
      assert s[..i] == s;
      WithoutNoneOf(s, IsSep);
    } else {
      var j := SkipForward(s, i, IsSep);
      SplitRunsKeepsText(s[j..]);
      SplitRunsFirst(s, i, j);
      assert AllOf(s[i..j], IsSep) by {
        forall k | 0 <= k < j - i ensures IsSep(s[i..j][k]) {
          assert s[i..j][k] == s[i + k];
        }
      }
      WithoutFirstRun(s, i, j, IsSep);
    }
  }

  /** The first piece of a split, and what the rest of the split spells. */
  lemma SplitRunsFirst(s: string, i: nat, j: nat)
    requires i == IndexWhere(s, IsSep) < |s| && j == SkipForward(s, i, IsSep)
    ensures Concat(SplitRuns(s)) == s[..i] + Concat(SplitRuns(s[j..]))
  {
    var tail := SplitRuns(s[j..]);
    assert SplitRuns(s) == [s[..i]] + tail;
    assert ([s[..i]] + tail)[1..] == tail;
  }

  /** Dropping the `drop` characters of `s` keeps a first piece without them and drops a run of them after it. */
  lemma WithoutFirstRun(s: string, i: nat, j: nat, drop: char -> bool)
    requires i <= j <= |s| && NoneOf(s[..i], drop) && AllOf(s[i..j], drop)
    ensures Without(s, drop) == s[..i] + Without(s[j..], drop)
  {
    assert s == s[..i] + s[i..j] + s[j..];
    WithoutPieceRun(s[..i], s[i..j], s[j..], drop);
  }

  /** `c.join(ws)`. */
  function JoinWith(ws: seq<string>, c: char): string {
    if ws == [] then []
    else if |ws| == 1 then ws[0]
    else ws[0] + [c] + JoinWith(ws[1..], c)
  }

  /** The first and last characters of a join are those of the first and last words. */
  lemma {:induction false} JoinEnds(ws: seq<string>, c: char)
    requires |ws| >= 1 && forall k :: 0 <= k < |ws| ==> ws[k] != []
    ensures var s := JoinWith(ws, c); s != [] && s[0] == ws[0][0] && s[|s| - 1] == ws[|ws| - 1][|ws[|ws| - 1]| - 1]
    decreases |ws|
  {
    if |ws| > 1 {
      var tail := ws[1..];
      if |tail| > 1 {
        assert tail[0] == ws[1];
      }
      JoinEnds(ws[1..], c);
    }
  }

  /** `s.split(c)`: the pieces between successive occurrences of `c`. */
  function SplitOn(s: string, c: char): (pieces: seq<string>)
    ensures |pieces| >= 1
    ensures forall k :: 0 <= k < |pieces| ==> c !in pieces[k]
    decreases |s|
  {
    var i := IndexWhere(s, Is(c));
    if i == |s| then
      assert s[..i] == s;
      [s]
    else
      [s[..i]] + SplitOn(s[i + 1..], c)
  }

  /** A word without `c`, then `c`, then the rest: the word comes off first. */
  lemma SplitOnStep(w: string, c: char, rest: string)
    requires NoneOf(w, Is(c))
    ensures SplitOn(w + [c] + rest, c) == [w] + SplitOn(rest, c)
  {
    var s := w + [c] + rest;
    assert s == w + ([c] + rest);
    IndexWhereAfter(w, [c] + rest, Is(c));
    assert s[..|w|] == w;
    assert s[|w| + 1..] == rest;
  }

  /** A word without `c` is not split. */
  lemma SplitOnNone(w: string, c: char)
    requires NoneOf(w, Is(c))
    ensures SplitOn(w, c) == [w]
  {
    assert w == w + [];
    IndexWhereAfter(w, [], Is(c));
  }

  /** Splitting undoes joining, as long as no word contains the joining character. */
  lemma {:induction false} SplitJoin(ws: seq<string>, c: char)
    requires |ws| >= 1
    requires forall k :: 0 <= k < |ws| ==> c !in ws[k]
    ensures SplitOn(JoinWith(ws, c), c) == ws
    decreases |ws|
  {
    assert NoneOf(ws[0], Is(c)) by {
      forall k | 0 <= k < |ws[0]| ensures ws[0][k] != c {
        assert ws[0][k] in ws[0];
      }
    }
    if |ws| == 1 {
      SplitOnNone(ws[0], c);
    } else {
      SplitOnStep(ws[0], c, JoinWith(ws[1..], c));
      SplitJoin(ws[1..], c);
      assert ws == [ws[0]] + ws[1..];
    }
  }
}

=== FILE: wrappers.dfy ===
/** Failure-carrying result types shared by the other modules. */
module Wrappers {

  /** A value that may be absent. */
  datatype Option<+T> = None | Some(value: T)

  /** Either a value or the error that prevented computing it. */
  datatype Result<+T, +E> = Success(value: T) | Failure(error: E)
}
